=== FILE: README.md ===
# ExamDictionary in Dafny

A model of the dictionary engine of ExamDictionary, a console application for
personal bilingual dictionaries. A dictionary maps each word to an ordered list
of translations. `CustomDictionary` adds, deletes and replaces words and
translations, searches a word, and translates a phrase word by word.
`FileStorage.Save` merges the dictionary into the stored one before writing it.
`Menu` validates new dictionary names, keeps the registry of names, and opens a
registered dictionary.

Every operation is a pure function over an immutable `map<string, seq<string>>`.
The console prompts become parameters:

- a raw input line (`string`), checked by the prompt's validity test (not blank,
  not all digits);
- a yes/no answer (`Option<string>`; `Engine.Confirms` accepts "так" or
  "yes" after trimming and lower-casing, and a null line is a refusal);
- `Option<string>` where the console may return null (the replacement mode and
  its texts, file names, menu lines).

An operation returns a `Step`: the words left in memory, a status, and whether
the operation ends with `Save(Words, active)`. Files are a map from file name to
parsed contents. `Storage.Save` reads the bare name and writes `name + ".json"`,
as the code does.

Modules, one per component:

- `Text`: .NET character classes, case mapping, `Trim`, `Split` on `,`/`.`,
  ordinal `IndexOf`.
- `Lists`: LINQ `Except`/`Intersect`, the `Contains`-guarded append, `Remove`.
- `Storage`: merge-on-save, `Load`, `Save`.
- `Engine`: the `CustomDictionary` operations.
- `Phrase`: `TranslatePhrase`.
- `Menu`: name validation, registry, opening, and how an operation reaches the
  files.

Where the code departs from what its comments and messages suggest, the model
follows the code:

- `AddWord` lower-cases the word but does not trim it; `ReplaceWord` and
  `ReplaceTranslation` look the word up exactly as typed.
- Phrase tokens are `\S+` and `\s+` runs, and punctuation is recognised by a
  token's first character only. So with a dictionary holding `"hello"` and
  `"world"`, the phrase `"Hello, world!"` is not translated: `"Hello,"` and
  `"world!"` are single tokens, looked up as `"hello,"` and `"world!"`, which
  are not keys. The text comes back as `"Hello,  world!"`, with the space
  doubled by the rebuild (see "## Findings").
- `DeleteWord` removes the word from memory before asking. A refusal skips only
  the save.
- `DeleteTranslation` and `ReplaceTranslation` save even when nothing changed.
- A word can end up with an empty translation list. This happens when
  `AddWord` creates a word from a line of separators only (such as `"..."`), and
  with mode 1 of `ReplaceTranslation`.
- `Save` merges into the file named after the bare dictionary name, not into
  `name.json`. So a deletion persists unless a bare-name file exists.

## Model

| member | source | states |
|---|---|---|
| Text.SplitPiecesCover | ExamDictionary/Dictionarys.cs:44-47 | splitting on `,` and `.` with empty entries removed loses only the separators: the pieces joined are the input without separators |
| Text.SplitPieces | ExamDictionary/Dictionarys.cs:45 | every piece is non-empty and contains no separator |
| Text.SplitPiecesAt | ExamDictionary/Dictionarys.cs:45 | a non-empty separator-free prefix ending at a separator is the first piece, and splitting resumes after the separator |
| Text.SplitPiecesOfSeparators | ExamDictionary/Dictionarys.cs:213 | a line of separators only has no pieces at all |
| Text.TrimLeadingWhiteSpace | ExamDictionary/Dictionarys.cs:214 | leading white space before a clean string is trimmed away and nothing else |
| Text.IndexOf | ExamDictionary/Dictionarys.cs:366 | the result is -1 or a position where the needle occurs, and no earlier occurrence exists |
| Text.TrimEmptyIffBlank | ExamDictionary/Dictionarys.cs:81-93 | a trimmed input is empty exactly when the input was blank |
| Text.TrimBlankIffBlank | ExamDictionary/Dictionarys.cs:285-287 | a trimmed line is blank exactly when the line was, so trimming before the blank test changes no decision |
| Text.ValidInput | ExamDictionary/Dictionarys.cs:74-88 | the prompt accepts only a non-empty line |
| Text.ValidInputMeans | ExamDictionary/Dictionarys.cs:81-85 | a line is accepted exactly when something is left after trimming and some character is not a digit |
| Text.TrimDropsLeadingWhiteSpace | ExamDictionary/Dictionarys.cs:98 | white space in front of a line does not change its trimmed form |
| Text.LowerIsZeroOnlyForZero | ExamDictionary/Menu.cs:126 | lower-casing yields "0" only for "0", so the exit test matches exactly that line |
| Lists.Except | ExamDictionary/Dictionarys.cs:55 | the result holds exactly the input elements outside the excluded set, each once |
| Lists.ExceptKeepsFirstOccurrenceOrder | ExamDictionary/Dictionarys.cs:55 | the result is in the order of first occurrence in the input |
| Lists.Intersect | ExamDictionary/Dictionarys.cs:56 | the result holds exactly the input elements inside the kept set, each once |
| Lists.AppendMissing | ExamDictionary/Manager.cs:59-65 | the old list is kept as a prefix of the result |
| Lists.AppendMissingContents | ExamDictionary/Manager.cs:59-65 | every appended element ends up in the list, and nothing but old and appended elements is in it |
| Lists.AppendMissingIsExcept | ExamDictionary/Manager.cs:59-65 | the append loop adds exactly the `Except` of the new elements over the old list |
| Lists.AppendMissingKeepsNoDup | ExamDictionary/Manager.cs:61 | a duplicate-free list stays duplicate-free |
| Lists.AppendMissingAbsorbed | ExamDictionary/Manager.cs:61 | appending elements already present leaves the list unchanged |
| Lists.FirstIndexIsFirst | ExamDictionary/Dictionarys.cs:236 | `IndexOf` finds the first occurrence: no earlier position holds the element |
| Lists.FirstIndexAt | ExamDictionary/Dictionarys.cs:236 | a position holding the element with none before it is the index `IndexOf` returns |
| Lists.RemoveFirst | ExamDictionary/Dictionarys.cs:140 | the first occurrence is removed and the other elements keep their order; exactly one occurrence goes (multiset difference) and the list shrinks by one |
| Lists.Filter | ExamDictionary/Dictionarys.cs:351-354 | the kept elements are exactly those satisfying the test |
| Lists.FilterAppend | ExamDictionary/Dictionarys.cs:351-354 | filtering distributes over concatenation, so the kept elements keep their order |
| Storage.Merge | ExamDictionary/Manager.cs:55-71 | the merged keys are the union of existing and incoming keys |
| Storage.Load | ExamDictionary/Manager.cs:79-88 | a missing file loads as an empty dictionary |
| Storage.MergeKeepsExisting | ExamDictionary/Manager.cs:55-71 | merging never removes anything: existing keys stay, each old list is a prefix of its merged list |
| Storage.MergeLeavesOthers | ExamDictionary/Manager.cs:55-71 | a key only in the existing dictionary keeps its list exactly |
| Storage.MergeSharedKey | ExamDictionary/Manager.cs:57-66 | a shared key gains only the missing incoming translations; all incoming ones end up present; duplicate-freedom is kept |
| Storage.MergeNewKey | ExamDictionary/Manager.cs:67-70 | a key new to the existing dictionary gets a verbatim copy of the incoming list |
| Storage.MergeIntoEmpty | ExamDictionary/Manager.cs:67-70 | merging into an empty dictionary returns the incoming dictionary exactly |
| Storage.MergeContainsIncoming | ExamDictionary/Manager.cs:55-71 | every incoming translation is in the merged dictionary under its key |
| Storage.MergeIdempotent | ExamDictionary/Manager.cs:57-70 | merging the same dictionary twice equals merging it once |
| Storage.MergeInOrder | ExamDictionary/Manager.cs:55-71 | the key-by-key loop gives the same merge for any enumeration order of the incoming keys |
| Storage.Save | ExamDictionary/Manager.cs:40-75 | a null dictionary or blank name is rejected before any write; otherwise only `name.json` changes |
| Storage.SaveReadsAnotherFile | ExamDictionary/Manager.cs:53-74 | the file merged from (bare name) is never the file written (`name.json`) |
| Storage.SaveThenLoad | ExamDictionary/Manager.cs:53-88 | reopening gives the bare-name file merged with what was saved; with no bare-name file, exactly what was saved |
| Storage.SaveTwiceSameFiles | ExamDictionary/Manager.cs:53-75 | saving the same dictionary twice leaves the same files as saving it once |
| Engine.AddWord | ExamDictionary/Dictionarys.cs:38-72 | invalid input changes nothing; otherwise the lower-cased word's list is its old list followed by the distinct new pieces; other keys are unchanged; added and duplicates are the new and already-present pieces |
| Engine.AddWordKeepsInputOrder | ExamDictionary/Dictionarys.cs:55-58 | added translations keep the order of first occurrence in the input line |
| Engine.AddWordPartitionsPieces | ExamDictionary/Dictionarys.cs:55-56 | added and duplicates are disjoint and together cover the pieces |
| Engine.AddWordKeepsNoDup | ExamDictionary/Dictionarys.cs:55-58 | a duplicate-free translation list stays duplicate-free |
| Engine.AddWordTwice | ExamDictionary/Dictionarys.cs:44-58 | repeating an addition changes nothing, adds nothing, and reports every piece as a duplicate |
| Engine.DeleteWord | ExamDictionary/Dictionarys.cs:90-114 | an absent word changes nothing; a present one leaves memory whether confirmed or not; only the save depends on confirmation |
| Engine.Confirms | ExamDictionary/Dictionarys.cs:97-100 | only a present answer of at least three characters can confirm |
| Engine.ConfirmsIgnoresLeadingSpace | ExamDictionary/Dictionarys.cs:136-138 | white space in front of an answer does not change whether it confirms |
| Engine.DeleteTranslation | ExamDictionary/Dictionarys.cs:116-157 | keys never change; an invalid word or translation changes nothing and does not save; a change happens only when confirmed, with at least two translations, and the normalised translation listed; it removes one occurrence and leaves at least one translation; a confirmed deletion of a listed translation from a word with at least two removes its first occurrence, the rest keeping its order, and saves |
| Engine.WithoutTranslation | ExamDictionary/Dictionarys.cs:140 | the word's list loses the first occurrence of the translation, the rest keeping its order, and every other word keeps its list |
| Engine.DeleteTranslationRefusals | ExamDictionary/Dictionarys.cs:119-152 | absent word, empty list, single translation, refusal and unlisted translation each leave the dictionary unchanged |
| Engine.DeleteTranslationKeepsWordsTranslated | ExamDictionary/Dictionarys.cs:129-140 | if every word had a translation before, every word still has one |
| Engine.ReplaceWord | ExamDictionary/Dictionarys.cs:160-185 | succeeds exactly when the old word is a key and the new one is not; then the list moves to the new key and the key count and other entries are unchanged; otherwise nothing changes |
| Engine.ReplaceWordSameName | ExamDictionary/Dictionarys.cs:172-176 | renaming a word to itself is a conflict with no change |
| Engine.ReplaceWordUndo | ExamDictionary/Dictionarys.cs:164-179 | renaming back restores the original dictionary |
| Engine.ReplaceTranslationUndo | ExamDictionary/Dictionarys.cs:229-236 | replacing a translation by an unlisted one and back restores the original dictionary |
| Engine.ReplaceTranslation | ExamDictionary/Dictionarys.cs:188-257 | mode 1 sets the list to the trimmed pieces; mode 2 overwrites only the first exact match, keeping length and other positions, and does so whenever the old translation is listed and the new one is non-empty; a missing old or empty new translation changes nothing; other modes neither change nor save |
| Engine.ReplacePiecesOfSeparators | ExamDictionary/Dictionarys.cs:212-215 | a line made only of `,` and `.` yields no replacement pieces |
| Engine.ReplaceAllKeepsCaseAndMayEmpty | ExamDictionary/Dictionarys.cs:210-215 | mode 1 keeps the typed case and can leave a word with no translation |
| Engine.Search | ExamDictionary/Dictionarys.cs:260-270 | blank input is refused; otherwise the trimmed, lower-cased word's list is found exactly when it is a key |
| Engine.ExportTranslations | ExamDictionary/Dictionarys.cs:292-306 | the export adds the searched word, keeps other entries, contains every found translation, and keeps the word's earlier list as a prefix |
| Engine.ExportIsMerge | ExamDictionary/Dictionarys.cs:292-306 | the export merge equals the save merge of the single searched entry |
| Engine.SearchAndExport | ExamDictionary/Dictionarys.cs:279-315 | a failed search, a declined export or a blank file name writes nothing; otherwise only `name.json` is written and every other file is kept |
| Engine.ExportedTranslationsPersist | ExamDictionary/Dictionarys.cs:289-308 | after an export, the target file holds the word with every found translation and keeps every translation it held before |
| Engine.ExportedKeepsTarget | ExamDictionary/Dictionarys.cs:292-306 | the export merge loses no translation the target already held |
| Engine.Commit | ExamDictionary/Dictionarys.cs:155 | an operation that does not save leaves the files alone; with a non-blank active name the save succeeds |
| Engine.AddThenSearch | ExamDictionary/Dictionarys.cs:41-58 | a trimmed word added can be searched and its list contains every added piece |
| Engine.AddedUntrimmedWordIsUnreachable | ExamDictionary/Dictionarys.cs:41 | a word typed with a leading space is stored under a key that search cannot reach |
| Engine.DeleteThenSearch | ExamDictionary/Dictionarys.cs:93-95 | after a deletion, confirmed or not, search reports the word not found |
| Engine.DeletePersists | ExamDictionary/Dictionarys.cs:95-102 | a confirmed deletion reaches the file when no bare-name file exists; a refused one writes nothing |
| Engine.BareFileResurrectsDeletedWord | ExamDictionary/Manager.cs:53-70 | a bare-name file containing the word brings it back into the saved file |
| Phrase.RunLength | ExamDictionary/Dictionarys.cs:328 | the run is the longest prefix of one kind (white space or not) |
| Phrase.Tokenize | ExamDictionary/Dictionarys.cs:328-331 | tokens are non-empty, each all white space or none, and neighbouring tokens differ in kind |
| Phrase.TokenizeConcat | ExamDictionary/Dictionarys.cs:328-331 | the tokens concatenate back to the phrase |
| Phrase.TokenAtOffset | ExamDictionary/Dictionarys.cs:366 | each token occurs at its offset, so the index after its first occurrence is inside the phrase for all but the last |
| Phrase.TranslateToken | ExamDictionary/Dictionarys.cs:337-355 | white-space and punctuation-led tokens pass through; any other token whose lower-cased form is a word with translations becomes its first translation and is not a miss; any other passes through as a miss |
| Phrase.Misses | ExamDictionary/Dictionarys.cs:351-354 | the misses are exactly the tokens reported untranslated |
| Phrase.MissesAppend | ExamDictionary/Dictionarys.cs:351-354 | the misses of two token runs are those of the first followed by those of the second, so they come in phrase order |
| Phrase.Outputs | ExamDictionary/Dictionarys.cs:333-356 | there is one output per token, in order |
| Phrase.Capitalize | ExamDictionary/Dictionarys.cs:373-376 | only the first character changes, to upper case, and the length is kept |
| Phrase.TranslatePhrase | ExamDictionary/Dictionarys.cs:323-376 | an invalid phrase is refused; otherwise the tokens are the `\S+`/`\s+` runs and tile the phrase, outputs match tokens one to one, misses are exactly the untranslated tokens, and the text is the capitalised rebuild with the extra-space rule |
| Phrase.AssembleIsPieces | ExamDictionary/Dictionarys.cs:362-370 | the rebuilt text is the outputs in order, each followed by `" "` exactly when the first-occurrence rule fires |
| Phrase.AssembleAtLeastOutputs | ExamDictionary/Dictionarys.cs:362-370 | the rebuilt text is never shorter than the outputs joined |
| Phrase.ExtraSpace | ExamDictionary/Dictionarys.cs:366-369 | the extra space is never added after the last output, and the position it inspects is taken from the token's first occurrence, which is at or before the token's own place |
| Phrase.Assemble | ExamDictionary/Dictionarys.cs:359-370 | the rebuild adds at most one character per token to the outputs joined |
| Phrase.AsWrittenDoublesSpace | ExamDictionary/Dictionarys.cs:362-376 | "a b" with an empty dictionary becomes "A  b" as written and "A b" when rebuilt as intended |
| Phrase.TranslatePhraseExact | ExamDictionary/Dictionarys.cs:358-376 | an invalid phrase is refused; otherwise the tokens are the `\S+`/`\s+` runs, misses are exactly the untranslated tokens, and the text is the capitalised join of the outputs without the extra-space rule |
| Phrase.ExactKeepsUntranslatedPhrase | ExamDictionary/Dictionarys.cs:358-376 | with the corrected rebuild, a phrase whose every token renders as itself comes back unchanged except its first letter, in any dictionary |
| Phrase.OutputsWithoutTranslations | ExamDictionary/Dictionarys.cs:337-355 | when no word has a translation, every token's output is the token itself |
| Phrase.AssembleWithoutExtraSpace | ExamDictionary/Dictionarys.cs:362-370 | when the first-occurrence rule never fires, the as-written rebuild is the outputs joined |
| Phrase.ExactAgreesWithoutExtraSpace | ExamDictionary/Dictionarys.cs:358-376 | for a valid phrase, the as-written and corrected translations agree whenever the first-occurrence rule never fires |
| Phrase.ExportPhrase | ExamDictionary/Dictionarys.cs:386-405 | a declined export or a blank file name writes nothing; otherwise only `name.json` is written and every other file is kept |
| Phrase.ExportPhraseOverwrites | ExamDictionary/Dictionarys.cs:393-398 | when no bare-name file exists, the exported file maps the phrase to the result alone and keeps its other entries |
| Menu.CreateDictionary | ExamDictionary/Menu.cs:66-100 | created exactly when the name is valid and unregistered; the registry then grows by that name and stays duplicate-free; an accepted name is non-blank, does not start with a digit, and is ASCII letters, digits and spaces; otherwise nothing changes |
| Menu.ValidName | ExamDictionary/Menu.cs:74-77 | an accepted name is present and non-empty |
| Menu.ValidNameIsFileSafe | ExamDictionary/Menu.cs:74-77 | an accepted name holds no dot, slash, backslash or colon, so `name.json` stays in the working directory |
| Menu.CreateWritesBareFileContents | ExamDictionary/Menu.cs:85-88 | creating writes `name.json` with the bare-name file's contents and touches no other file |
| Menu.NameExamples | ExamDictionary/Menu.cs:74-77 | a leading space is accepted; a leading digit and a hyphen are not |
| Menu.OpenDictionary | ExamDictionary/Menu.cs:111-146 | only an exact registered name (other than "0" and "") opens its dictionary from its file; otherwise nothing changes; registry and files never change |
| Menu.OpenIsCaseSensitive | ExamDictionary/Menu.cs:128 | a name differing only in case is not found |
| Menu.Perform | ExamDictionary/Menu.cs:163-207 | an operation replaces the active words; a save under a blank active name fails; a save under any other name succeeds and writes `name.json` as the merge of the bare-name file with the words, leaving other files; registry and active name are kept |
| Menu.CreatedSessionSaves | ExamDictionary/Menu.cs:81-91 | after creating a dictionary, when no bare-name file exists, every operation's save succeeds and reopening yields what was saved |

## Findings

| source | as written | input that shows it | evidently intended | confidence | as-written member | corrected member |
|---|---|---|---|---|---|---|
| ExamDictionary/Dictionarys.cs:366-369 | after each output but the last, `" "` is appended when the character after the token's first occurrence is white space, although the white-space token itself is also appended | phrase `"a b"`, empty dictionary: result `"A  b"` | the phrase rebuilt with its spacing unchanged (`"A b"`), as the comment on the rebuild loop says | high, not executed | Phrase.AsWrittenDoublesSpace | Phrase.TranslatePhraseExact |

`Phrase.TranslatePhrase` keeps the as-written rule, because the rest of the model
describes the program as it behaves. `Phrase.TranslatePhraseExact` is the
corrected definition. `Phrase.ExactKeepsUntranslatedPhrase` proves that it
keeps the spacing of any phrase whose tokens all render as themselves, in any
dictionary, and `Phrase.ExactAgreesWithoutExtraSpace` proves that the two rules
agree whenever the extra space is never added.

## Left out

- Console output, prompts, the `GetInput` retry loop, reading confirmations,
  cursor positioning, `WaitForUser`, `Environment.Exit` and the menu loops. This
  is user interface: the answers are parameters, and one call models one pass.
- JSON serialisation and `File.Exists`/`ReadAllText`/`WriteAllText`. Files hold
  parsed contents. A malformed file, which makes the deserialiser throw, is not
  modelled, and neither are write failures.
- `SaveDictionaryList` and `LoadDictionaryList`. They are plain list I/O; the
  registry is held in `Menu.Session`.
- `DictionaryFactory`, `DictionaryManager` and the interfaces in
  ExamDictionary/Interfaces.cs. They only delegate or declare.
- The unused `Word` class. `BaseDictionary.ToDictionary` appears only as the
  empty dictionary saved on creation.
- Culture-sensitive behaviour. `Text.LowerChar` and `Text.UpperChar` cover only
  ASCII, Latin-1 (except that `Text.UpperChar` leaves U+00B5 and U+00FF
  unchanged, where .NET maps them to U+039C and U+0178),
  Cyrillic U+0400 to U+045F and Ґ/ґ (U+0490/U+0491); the other Cyrillic
  Supplement and Extended letters keep their case. `Text.IsDigit` covers ASCII
  digits only. `Text.IsPunctuation` covers the punctuation characters of ASCII,
  Latin-1 and the General Punctuation block, and no other block.
  `IndexOf` is ordinal.
- The runtime's dictionary enumeration order. `Storage.MergeInOrder` shows the
  merge does not depend on it.

=== FILE: engine.dfy ===
/** `CustomDictionary`: the word and translation operations of the console
    dictionary (ExamDictionary/Dictionarys.cs:27-321). Each console prompt
    becomes a parameter: a raw input line, a yes/no confirmation, or an
    optional line where the console may return null. Each operation returns
    the in-memory dictionary it leaves, what it reports, and whether it ends
    by saving the dictionary. */
module Engine {
  import opened Outcomes
  import opened Text
  import opened Lists
  import opened Storage

  /** Why an operation did not do what was asked. */
  datatype Reason =
    | InvalidInput        // an answer failed the prompt's validity test
    | NotFound            // the word is not a key (or has no translations)
    | Conflict            // the new name of a word is already a key
    | LastTranslation     // the only translation of a word cannot be deleted
    | TranslationMissing  // the translation to delete or replace is not listed
    | EmptyTranslation    // the replacement text is missing or empty
    | InvalidChoice       // a replacement mode other than "1" or "2"

  datatype Status =
    | Done
    | Added(added: seq<string>, duplicates: seq<string>)
    | Cancelled
    | Rejected(reason: Reason)

  /** The outcome of one operation: the dictionary left in memory, the
      report, and whether the operation ends with `Save(Words, active)`. */
  datatype Step = Step(words: Dict, status: Status, saves: bool)

  /** A confirmation answer: the line, trimmed and lower-cased, is "так"
      (Ukrainian "yes") or "yes"; a null line is a refusal. */
  predicate Confirms(answer: Option<string>): (b: bool)
    ensures b ==> answer.Some? && |answer.value| >= 3
  {
    answer.Some? && (Lower(Trim(answer.value)) == "так" || Lower(Trim(answer.value)) == "yes")
  }

  /** Leading white space does not change an answer. */
  lemma ConfirmsIgnoresLeadingSpace(c: char, s: string)
    requires IsWhiteSpace(c)
    ensures Confirms(Some([c] + s)) <==> Confirms(Some(s))
  {
    TrimDropsLeadingWhiteSpace(c, s);
  }

  /** The translations already stored for `w`, none if it is not a key. */
  function Existing(m: Dict, w: string): seq<string> {
    if w in m then m[w] else []
  }

  /** The pieces `AddWord` makes of a translation line: split on `,` and
      `.`, empty pieces dropped, then each trimmed and lower-cased. */
  function AddPieces(text: string): seq<string> {
    var ps := SplitPieces(text);
    seq(|ps|, i requires 0 <= i < |ps| => Lower(Trim(ps[i])))
  }

  /** The pieces `ReplaceTranslation` mode 1 makes: trimmed, case kept. */
  function ReplacePieces(text: string): seq<string> {
    var ps := SplitPieces(text);
    seq(|ps|, i requires 0 <= i < |ps| => Trim(ps[i]))
  }

  // ---------------------------------------------------------------------
  // AddWord (Dictionarys.cs:38-72)
  // ---------------------------------------------------------------------

  /** The word is lower-cased but not trimmed; the translation pieces not yet
      stored for it are appended, the others reported as duplicates. A word
      that was not a key becomes one even when no piece is added. */
  function AddWord(m: Dict, wordInput: string, translationInput: string): (r: Step)
    ensures !(ValidInput(wordInput) && ValidInput(translationInput)) ==> r == Step(m, Rejected(InvalidInput), false)
    ensures ValidInput(wordInput) && ValidInput(translationInput) ==>
      var w := Lower(wordInput);
      var before := Existing(m, w);
      var ts := AddPieces(translationInput);
      && r.saves && r.status.Added?
      && r.words.Keys == m.Keys + {w}
      && (forall k :: k in m && k != w ==> r.words[k] == m[k])
      && r.words[w] == before + r.status.added
      && (forall t :: t in r.status.added <==> t in ts && t !in before)
      && (forall t :: t in r.status.duplicates <==> t in ts && t in before)
      && NoDup(r.status.added) && NoDup(r.status.duplicates)
  {
    if !(ValidInput(wordInput) && ValidInput(translationInput)) then Step(m, Rejected(InvalidInput), false)
    else
      var w := Lower(wordInput);
      var before := Existing(m, w);
      var ts := AddPieces(translationInput);
      var added := Except(ts, Elems(before));
      var duplicates := Intersect(ts, Elems(before));
      Step(m[w := before + added], Added(added, duplicates), true)
  }

  /** The added translations appear in the order in which they first occur
      among the pieces of the input line. */
  lemma AddWordKeepsInputOrder(m: Dict, wordInput: string, translationInput: string, i: nat, j: nat)
    requires ValidInput(wordInput) && ValidInput(translationInput)
    requires AddWord(m, wordInput, translationInput).status.Added?
    requires i < j < |AddWord(m, wordInput, translationInput).status.added|
    ensures var added := AddWord(m, wordInput, translationInput).status.added;
      var ts := AddPieces(translationInput);
      added[i] in ts && added[j] in ts && FirstIndex(ts, added[i]) < FirstIndex(ts, added[j])
  {
    var ts := AddPieces(translationInput);
    var before := Existing(m, Lower(wordInput));
    ExceptKeepsFirstOccurrenceOrder(ts, Elems(before), i, j);
  }

  /** The added and the duplicate translations are disjoint and together
      are exactly the pieces of the input line. */
  lemma AddWordPartitionsPieces(m: Dict, wordInput: string, translationInput: string)
    requires ValidInput(wordInput) && ValidInput(translationInput)
    ensures var s := AddWord(m, wordInput, translationInput).status;
      s.Added?
      && Elems(s.added) !! Elems(s.duplicates)
      && Elems(s.added) + Elems(s.duplicates) == Elems(AddPieces(translationInput))
  {
    var s := AddWord(m, wordInput, translationInput).status;
    var before := Existing(m, Lower(wordInput));
    assert forall t :: t in s.added ==> t !in before;
    assert forall t :: t in s.duplicates ==> t in before;
  }

  /** A word whose list had no duplicates still has none. */
  lemma AddWordKeepsNoDup(m: Dict, wordInput: string, translationInput: string)
    requires ValidInput(wordInput) && ValidInput(translationInput)
    requires NoDup(Existing(m, Lower(wordInput)))
    ensures NoDup(AddWord(m, wordInput, translationInput).words[Lower(wordInput)])
  {
    var before := Existing(m, Lower(wordInput));
    var ts := AddPieces(translationInput);
    AppendMissingIsExcept(before, ts);
    AppendMissingKeepsNoDup(before, ts);
  }

  /** Repeating the same addition adds nothing: the dictionary stays as the
      first call left it and every distinct piece is reported as a duplicate. */
  lemma AddWordTwice(m: Dict, wordInput: string, translationInput: string)
    requires ValidInput(wordInput) && ValidInput(translationInput)
    ensures var once := AddWord(m, wordInput, translationInput);
      var twice := AddWord(once.words, wordInput, translationInput);
      && twice.words == once.words
      && twice.status.Added? && twice.status.added == []
      && Elems(twice.status.duplicates) == Elems(AddPieces(translationInput))
  {
    var w := Lower(wordInput);
    var ts := AddPieces(translationInput);
    var once := AddWord(m, wordInput, translationInput);
    var stored := once.words[w];
    forall t | t in ts
      ensures t in Elems(stored)
    {
      if t !in Existing(m, w) {
        assert t in once.status.added;
      }
    }
    ExceptAllSeen(ts, Elems(stored));
    assert Existing(once.words, w) == stored;
    assert stored + [] == stored;
  }

  // ---------------------------------------------------------------------
  // DeleteWord (Dictionarys.cs:90-114)
  // ---------------------------------------------------------------------

  /** The trimmed, lower-cased word is removed before the confirmation is
      asked, so a refusal only skips the save: the in-memory entry is gone
      either way. */
  function DeleteWord(m: Dict, wordInput: string, answer: Option<string>): (r: Step)
    ensures !ValidInput(wordInput) ==> r == Step(m, Rejected(InvalidInput), false)
    ensures ValidInput(wordInput) && Lower(Trim(wordInput)) !in m ==> r == Step(m, Rejected(NotFound), false)
    ensures ValidInput(wordInput) && Lower(Trim(wordInput)) in m ==>
      && r.words.Keys == m.Keys - {Lower(Trim(wordInput))}
      && (forall k :: k in r.words ==> r.words[k] == m[k])
      && r.saves == Confirms(answer)
      && r.status == (if Confirms(answer) then Done else Cancelled)
  {
    if !ValidInput(wordInput) then Step(m, Rejected(InvalidInput), false)
    else
      var w := Lower(Trim(wordInput));
      if w !in m then Step(m, Rejected(NotFound), false)
      else
        var yes := Confirms(answer);
        Step(m - {w}, if yes then Done else Cancelled, yes)
  }

  // ---------------------------------------------------------------------
  // DeleteTranslation (Dictionarys.cs:116-157)
  // ---------------------------------------------------------------------

  /** Deletes the first occurrence of the trimmed, lower-cased translation,
      but never the only one. Every path past the word lookup saves,
      whether or not anything was deleted. */
  function DeleteTranslation(m: Dict, wordInput: string, translationInput: string, answer: Option<string>): (r: Step)
    ensures r.words.Keys == m.Keys
    ensures !ValidInput(wordInput) || !ValidInput(translationInput) ==> r.words == m && !r.saves
    ensures r.words != m ==>
      var w := Lower(Trim(wordInput));
      var t := Lower(Trim(translationInput));
      && ValidInput(wordInput) && ValidInput(translationInput) && Confirms(answer)
      && w in m && |m[w]| >= 2 && t in m[w]
      && r.status == Done && r.saves
      && (forall k :: k in m && k != w ==> r.words[k] == m[k])
      && multiset(r.words[w]) == multiset(m[w]) - multiset{t}
      && |r.words[w]| == |m[w]| - 1 >= 1
    ensures var w := Lower(Trim(wordInput));
      var t := Lower(Trim(translationInput));
      (&& ValidInput(wordInput) && ValidInput(translationInput) && Confirms(answer)
       && w in m && |m[w]| >= 2 && t in m[w]) ==>
        && r.status == Done && r.saves
        && exists i :: 0 <= i < |m[w]| && m[w][i] == t && t !in m[w][..i]
             && r.words == m[w := m[w][..i] + m[w][i + 1..]]
  {
    if !ValidInput(wordInput) then Step(m, Rejected(InvalidInput), false)
    else
      var w := Lower(Trim(wordInput));
      if w !in m || |m[w]| == 0 then Step(m, Rejected(NotFound), false)
      else if !ValidInput(translationInput) then Step(m, Rejected(InvalidInput), false)
      else if |m[w]| == 1 then Step(m, Rejected(LastTranslation), true)
      else if !Confirms(answer) then Step(m, Cancelled, true)
      else
        var t := Lower(Trim(translationInput));
        if t in m[w] then Step(WithoutTranslation(m, w, t), Done, true)
        else Step(m, Rejected(TranslationMissing), true)
  }

  /** The dictionary with the first occurrence of `t` removed from the list
      of `w`; every other word keeps its list. */
  function WithoutTranslation(m: Dict, w: string, t: string): (r: Dict)
    requires w in m && t in m[w]
    ensures r.Keys == m.Keys
    ensures forall k :: k in m && k != w ==> r[k] == m[k]
    ensures multiset(r[w]) == multiset(m[w]) - multiset{t}
    ensures |r[w]| == |m[w]| - 1
    ensures exists i :: 0 <= i < |m[w]| && m[w][i] == t && t !in m[w][..i] && r == m[w := m[w][..i] + m[w][i + 1..]]
  {
    m[w := RemoveFirst(m[w], t)]
  }

  /** The four cases in which nothing is deleted. */
  lemma DeleteTranslationRefusals(m: Dict, wordInput: string, translationInput: string, answer: Option<string>)
    requires ValidInput(wordInput) && ValidInput(translationInput)
    ensures var w := Lower(Trim(wordInput));
      var r := DeleteTranslation(m, wordInput, translationInput, answer);
      && (w !in m || |m[w]| == 0 ==> r == Step(m, Rejected(NotFound), false))
      && (w in m && |m[w]| == 1 ==> r == Step(m, Rejected(LastTranslation), true))
      && (w in m && |m[w]| >= 2 && !Confirms(answer) ==> r == Step(m, Cancelled, true))
      && (w in m && |m[w]| >= 2 && Confirms(answer) && Lower(Trim(translationInput)) !in m[w] ==>
            r == Step(m, Rejected(TranslationMissing), true))
  {
  }

  /** Deleting translations keeps every word with at least one translation
      when all had one before. */
  lemma DeleteTranslationKeepsWordsTranslated(m: Dict, wordInput: string, translationInput: string, answer: Option<string>)
    requires forall k :: k in m ==> |m[k]| >= 1
    ensures var r := DeleteTranslation(m, wordInput, translationInput, answer);
      forall k :: k in r.words ==> |r.words[k]| >= 1
  {
  }

  // ---------------------------------------------------------------------
  // ReplaceWord (Dictionarys.cs:160-185)
  // ---------------------------------------------------------------------

  /** Moves the translation list of `oldInput` to `newInput`. Both are used
      exactly as typed, without trimming or lower-casing. */
  function ReplaceWord(m: Dict, oldInput: string, newInput: string): (r: Step)
    ensures !ValidInput(oldInput) ==> r == Step(m, Rejected(InvalidInput), false)
    ensures ValidInput(oldInput) && oldInput !in m ==> r == Step(m, Rejected(NotFound), false)
    ensures ValidInput(oldInput) && oldInput in m && ValidInput(newInput) && newInput in m ==>
      r == Step(m, Rejected(Conflict), false)
    ensures r.status == Done <==> ValidInput(oldInput) && oldInput in m && ValidInput(newInput) && newInput !in m
    ensures r.status == Done ==>
      && r.saves
      && r.words.Keys == m.Keys - {oldInput} + {newInput}
      && |r.words| == |m|
      && r.words[newInput] == m[oldInput]
      && (forall k :: k in m && k != oldInput ==> r.words[k] == m[k])
    ensures r.status != Done ==> r.words == m && !r.saves
  {
    if !ValidInput(oldInput) then Step(m, Rejected(InvalidInput), false)
    else if oldInput !in m then Step(m, Rejected(NotFound), false)
    else if !ValidInput(newInput) then Step(m, Rejected(InvalidInput), false)
    else if newInput in m then Step(m, Rejected(Conflict), false)
    else
      var r := (m - {oldInput})[newInput := m[oldInput]];
      assert r.Keys == m.Keys - {oldInput} + {newInput};
      assert |r.Keys| == |m.Keys|;
      Step(r, Done, true)
  }

  /** Renaming a word to itself is a conflict and changes nothing. */
  lemma ReplaceWordSameName(m: Dict, w: string)
    requires ValidInput(w) && w in m
    ensures ReplaceWord(m, w, w) == Step(m, Rejected(Conflict), false)
  {
  }

  /** Renaming back undoes a rename. */
  lemma ReplaceWordUndo(m: Dict, a: string, b: string)
    requires ReplaceWord(m, a, b).status == Done
    ensures ReplaceWord(ReplaceWord(m, a, b).words, b, a) == Step(m, Done, true)
  {
    var once := ReplaceWord(m, a, b).words;
    var back := ReplaceWord(once, b, a).words;
    assert back.Keys == m.Keys;
    assert forall k :: k in m ==> back[k] == m[k];
  }

  // ---------------------------------------------------------------------
  // ReplaceTranslation (Dictionarys.cs:188-257)
  // ---------------------------------------------------------------------

  /** Mode "1" replaces the whole list with the trimmed (not lower-cased)
      pieces of `first`; mode "2" overwrites the first exact occurrence of
      `first` with `second`. The word is used exactly as typed. Both modes
      save even when they change nothing; an unknown mode does not. */
  function ReplaceTranslation(m: Dict, wordInput: string, choice: Option<string>,
                              first: Option<string>, second: Option<string>): (r: Step)
    ensures r.words.Keys == m.Keys
    ensures !ValidInput(wordInput) || wordInput !in m ==> r.words == m && !r.saves
    ensures ValidInput(wordInput) && wordInput in m && choice == Some("1") ==>
      r.saves &&
      if first.Some? && first.value != "" then r.words == m[wordInput := ReplacePieces(first.value)]
      else r == Step(m, Rejected(EmptyTranslation), true)
    ensures ValidInput(wordInput) && wordInput in m && choice == Some("2") ==>
      var ts := m[wordInput];
      && r.saves
      && (first.None? || first.value == "" || first.value !in ts ==> r == Step(m, Rejected(TranslationMissing), true))
      && (second.None? || second.value == "" ==> r.words == m)
      && (r.words != m ==>
            && first.Some? && second.Some?
            && (forall k :: k in m && k != wordInput ==> r.words[k] == m[k])
            && |r.words[wordInput]| == |ts|
            && (exists i :: 0 <= i < |ts| && ts[i] == first.value
                 && r.words[wordInput][i] == second.value
                 && (forall j :: 0 <= j < i ==> ts[j] != first.value)
                 && (forall j :: 0 <= j < |ts| && j != i ==> r.words[wordInput][j] == ts[j])))
    ensures (&& ValidInput(wordInput) && wordInput in m && choice == Some("2")
             && first.Some? && first.value != "" && first.value in m[wordInput]
             && second.Some? && second.value != "") ==>
        var ts := m[wordInput];
        && r.status == Done
        && exists i :: 0 <= i < |ts| && ts[i] == first.value && first.value !in ts[..i]
             && r.words == m[wordInput := ts[i := second.value]]
    ensures choice != Some("1") && choice != Some("2") ==> r.words == m && !r.saves
  {
    if !ValidInput(wordInput) then Step(m, Rejected(InvalidInput), false)
    else if wordInput !in m then Step(m, Rejected(NotFound), false)
    else if choice == Some("1") then
      if first.Some? && first.value != "" then Step(m[wordInput := ReplacePieces(first.value)], Done, true)
      else Step(m, Rejected(EmptyTranslation), true)
    else if choice == Some("2") then
      var ts := m[wordInput];
      if first.Some? && first.value != "" && first.value in ts then
        if second.Some? && second.value != "" then
          var i := FirstIndex(ts, first.value);
          FirstIndexIsFirst(ts, first.value);
          Step(m[wordInput := ts[i := second.value]], Done, true)
        else Step(m, Rejected(EmptyTranslation), true)
      else Step(m, Rejected(TranslationMissing), true)
    else Step(m, Rejected(InvalidChoice), false)
  }

  /** A line of separators only gives mode 1 no pieces. */
  lemma ReplacePiecesOfSeparators(text: string)
    requires forall i :: 0 <= i < |text| ==> IsSeparator(text[i])
    ensures ReplacePieces(text) == []
  {
    SplitPiecesOfSeparators(text);
  }

  /** Mode "2" is undone by replacing back: when the new translation was
      not listed, its first occurrence afterwards is the overwritten one. */
  lemma ReplaceTranslationUndo(m: Dict, w: string, a: string, b: string)
    requires ValidInput(w) && w in m
    requires a != "" && b != "" && a in m[w] && b !in m[w]
    ensures var once := ReplaceTranslation(m, w, Some("2"), Some(a), Some(b)).words;
      ReplaceTranslation(once, w, Some("2"), Some(b), Some(a)).words == m
  {
    var ts := m[w];
    var i := FirstIndex(ts, a);
    ReplaceAtFirstIndex(m, w, a, b);
    var us := ts[i := b];
    assert us[..i] == ts[..i];
    FirstIndexAt(us, b, i);
    ReplaceAtFirstIndex(m[w := us], w, b, a);
    assert us[i := a] == ts;
  }

  /** Mode "2" with a listed old translation and a non-empty new one writes
      the new one at the old one's first index. */
  lemma ReplaceAtFirstIndex(m: Dict, w: string, a: string, b: string)
    requires ValidInput(w) && w in m
    requires a != "" && b != "" && a in m[w]
    ensures ReplaceTranslation(m, w, Some("2"), Some(a), Some(b)).words == m[w := m[w][FirstIndex(m[w], a) := b]]
  {
    assert ReplaceTranslation(m, w, Some("2"), Some(a), Some(b))
        == Step(m[w := m[w][FirstIndex(m[w], a) := b]], Done, true);
  }

  /** Mode "1" keeps the case of what was typed and can leave the word with
      no translation at all: a line of separators only yields no pieces. */
  lemma ReplaceAllKeepsCaseAndMayEmpty(m: Dict, w: string)
    requires ValidInput(w) && w in m
    ensures ReplaceTranslation(m, w, Some("1"), Some("Cat, Dog"), None).words[w] == ["Cat", "Dog"]
    ensures ReplaceTranslation(m, w, Some("1"), Some("..."), None).words[w] == []
  {
    ReplaceAllCatDog(m, w);
    ReplaceAllSeparators(m, w);
  }

  // ---------------------------------------------------------------------
  // SearchTranslations (Dictionarys.cs:260-321)
  // ---------------------------------------------------------------------

  /** The lookup: a blank word is refused, otherwise the trimmed,
      lower-cased word's list is returned as stored. */
  function Search(m: Dict, wordInput: string): (r: Result<seq<string>, Reason>)
    ensures IsBlank(wordInput) ==> r == Failure(InvalidInput)
    ensures !IsBlank(wordInput) ==>
      (r.Success? <==> Lower(Trim(wordInput)) in m)
      && (r.Success? ==> r.value == m[Lower(Trim(wordInput))])
      && (r.Failure? ==> r.error == NotFound)
  {
    if IsBlank(wordInput) then Failure(InvalidInput)
    else
      var w := Lower(Trim(wordInput));
      if w in m then Success(m[w]) else Failure(NotFound)
  }

  /** The single-key export merge: the found translations are merged into
      the target dictionary under the searched word. */
  function ExportTranslations(target: Dict, w: string, ts: seq<string>): (r: Dict)
    ensures r.Keys == target.Keys + {w}
    ensures forall k :: k in target && k != w ==> r[k] == target[k]
    ensures forall t :: t in ts ==> t in r[w]
    ensures w in target ==> |target[w]| <= |r[w]| && r[w][..|target[w]|] == target[w]
  {
    if w in target then
      AppendMissingContents(target[w], ts);
      target[w := AppendMissing(target[w], ts)]
    else target[w := ts]
  }

  /** The export merge is `Save`'s merge restricted to one key. */
  lemma ExportIsMerge(target: Dict, w: string, ts: seq<string>)
    ensures ExportTranslations(target, w, ts) == Merge(target, map[w := ts])
  {
  }

  /** Search followed by the optional export. `destination` is the file name
      typed after agreeing to save (`None` when the user declines or the
      console returns null); it is trimmed, a blank one skips the export. */
  function SearchAndExport(fs: FileSystem, m: Dict, wordInput: string, destination: Option<string>): (r: FileSystem)
    ensures Search(m, wordInput).Failure? || destination.None? || IsBlank(Trim(destination.value)) ==> r == fs
    ensures Search(m, wordInput).Success? && destination.Some? && !IsBlank(Trim(destination.value)) ==>
      var n := Trim(destination.value);
      && r.Keys == fs.Keys + {JsonFile(n)}
      && (forall f :: f in fs && f != JsonFile(n) ==> r[f] == fs[f])
  {
    match Search(m, wordInput)
    case Failure(_) => fs
    case Success(ts) =>
      if destination.None? || IsBlank(Trim(destination.value)) then fs
      else
        var name := Trim(destination.value);
        var w := Lower(Trim(wordInput));
        Save(fs, Some(ExportTranslations(Load(fs, JsonFile(name)), w, ts)), name).value
  }

  /** After an export, the exported file holds the searched word with every
      translation found, and every translation the target file held before. */
  lemma ExportedTranslationsPersist(fs: FileSystem, m: Dict, wordInput: string, name: string)
    requires !IsBlank(name)
    ensures Search(m, wordInput).Success? ==>
      var saved := Load(SearchAndExport(fs, m, wordInput, Some(name)), JsonFile(Trim(name)));
      var before := Load(fs, JsonFile(Trim(name)));
      var w := Lower(Trim(wordInput));
      && w in saved && (forall t :: t in m[w] ==> t in saved[w])
      && (forall k, t :: k in before && t in before[k] ==> k in saved && t in saved[k])
  {
    if Search(m, wordInput).Success? {
      TrimBlankIffBlank(name);
      var n := Trim(name);
      var w := Lower(Trim(wordInput));
      var before := Load(fs, JsonFile(n));
      var exported := ExportTranslations(before, w, m[w]);
      forall t | t in m[w]
        ensures t in Merge(Load(fs, n), exported)[w]
      {
        MergeContainsIncoming(Load(fs, n), exported, w, t);
      }
      forall k, t | k in before && t in before[k]
        ensures k in Merge(Load(fs, n), exported) && t in Merge(Load(fs, n), exported)[k]
      {
        ExportedKeepsTarget(before, w, m[w], k, t);
        MergeContainsIncoming(Load(fs, n), exported, k, t);
      }
    }
  }

  /** The export merge keeps every translation the target already held. */
  lemma ExportedKeepsTarget(target: Dict, w: string, ts: seq<string>, k: string, t: string)
    requires k in target && t in target[k]
    ensures k in ExportTranslations(target, w, ts) && t in ExportTranslations(target, w, ts)[k]
  {
    if k == w {
      var r := ExportTranslations(target, w, ts);
      var i :| 0 <= i < |target[k]| && target[k][i] == t;
      assert r[w][..|target[w]|][i] == t;
    }
  }

  // ---------------------------------------------------------------------
  // Composition with the storage
  // ---------------------------------------------------------------------

  /** The files after an operation on the dictionary named `active`. */
  function Commit(fs: FileSystem, active: string, step: Step): (r: Result<FileSystem, SaveError>)
    ensures !step.saves ==> r == Success(fs)
    ensures step.saves && !IsBlank(active) ==> r.Success?
  {
    if step.saves then Save(fs, Some(step.words), active) else Success(fs)
  }

  /** Added translations can be found by searching for the word, provided it
      was typed without surrounding white space. */
  lemma AddThenSearch(m: Dict, wordInput: string, translationInput: string)
    requires ValidInput(wordInput) && ValidInput(translationInput)
    requires Trim(wordInput) == wordInput
    ensures var r := Search(AddWord(m, wordInput, translationInput).words, wordInput);
      r.Success? && forall t :: t in AddPieces(translationInput) ==> t in r.value
  {
    var once := AddWord(m, wordInput, translationInput);
    var w := Lower(wordInput);
    forall t | t in AddPieces(translationInput)
      ensures t in once.words[w]
    {
      if t !in Existing(m, w) {
        assert t in once.status.added;
      }
    }
  }

  /** A word typed with a leading space is stored under a key no search
      reaches: the lookup trims, the addition does not. */
  lemma AddedUntrimmedWordIsUnreachable(m: Dict, translationInput: string)
    requires ValidInput(translationInput) && "cat" !in m
    ensures " cat" in AddWord(m, " cat", translationInput).words
    ensures Search(AddWord(m, " cat", translationInput).words, " cat") == Failure(NotFound)
  {
    LeadingSpaceCat();
  }

  /** A deleted word is not found afterwards, confirmed or not. */
  lemma DeleteThenSearch(m: Dict, wordInput: string, answer: Option<string>)
    requires ValidInput(wordInput)
    ensures Search(DeleteWord(m, wordInput, answer).words, wordInput) == Failure(NotFound)
  {
  }

  /** A confirmed deletion reaches the file when there is no bare-name file
      to merge it back from; a refused one writes nothing. */
  lemma DeletePersists(fs: FileSystem, active: string, m: Dict, wordInput: string, answer: Option<string>)
    requires ValidInput(wordInput) && Lower(Trim(wordInput)) in m
    requires !IsBlank(active) && active !in fs
    ensures var r := Commit(fs, active, DeleteWord(m, wordInput, answer));
      && r.Success?
      && (Confirms(answer) ==> Lower(Trim(wordInput)) !in Load(r.value, JsonFile(active)))
      && (!Confirms(answer) ==> r.value == fs)
  {
    if Confirms(answer) {
      SaveThenLoad(fs, DeleteWord(m, wordInput, answer).words, active);
    }
  }

  /** A bare-name file brings deleted words back: `Save` merges the
      dictionary into it, and merging never removes a key. */
  lemma BareFileResurrectsDeletedWord(fs: FileSystem, active: string, m: Dict, wordInput: string, answer: Option<string>)
    requires ValidInput(wordInput) && Lower(Trim(wordInput)) in m && Confirms(answer)
    requires !IsBlank(active) && active in fs && Lower(Trim(wordInput)) in fs[active]
    ensures var r := Commit(fs, active, DeleteWord(m, wordInput, answer));
      r.Success? && Lower(Trim(wordInput)) in Load(r.value, JsonFile(active))
  {
    var step := DeleteWord(m, wordInput, answer);
    SaveThenLoad(fs, step.words, active);
    MergeKeepsExisting(fs[active], step.words, Lower(Trim(wordInput)));
  }

  // ---------------------------------------------------------------------
  // Worked examples on fixed strings, one fact per lemma, used by
  // ReplaceAllKeepsCaseAndMayEmpty and AddedUntrimmedWordIsUnreachable
  // ---------------------------------------------------------------------

  /** "Cat, Dog" splits into "Cat" and " Dog". */
  lemma SplitCatDog()
    ensures SplitPieces("Cat, Dog") == ["Cat", " Dog"]
  {
    assert NoSeparator("Cat") && NoSeparator(" Dog");
    SplitPiecesAt("Cat", ',', " Dog");
    assert "Cat" + [','] + " Dog" == "Cat, Dog";
    SplitPiecesWhole(" Dog");
  }

  /** Trimming removes the space before "Dog". */
  lemma TrimDog()
    ensures Trim(" Dog") == "Dog"
  {
    TrimLeadingWhiteSpace(' ', "Dog");
    assert [' '] + "Dog" == " Dog";
  }

  /** "Cat" has nothing to trim. */
  lemma TrimCat()
    ensures Trim("Cat") == "Cat"
  {
    TrimClean("Cat");
  }

  /** Mode 1 turns "Cat, Dog" into "Cat" and "Dog", case kept. */
  lemma ReplacePiecesCatDog()
    ensures ReplacePieces("Cat, Dog") == ["Cat", "Dog"]
  {
    SplitCatDog();
    TrimCat();
    TrimDog();
    ReplacePiecesOfTwo("Cat, Dog", "Cat", " Dog");
  }

  /** Mode 1 pieces of a line that splits into two pieces. */
  lemma ReplacePiecesOfTwo(text: string, a: string, b: string)
    requires SplitPieces(text) == [a, b]
    ensures ReplacePieces(text) == [Trim(a), Trim(b)]
  {
  }

  /** Mode 1 turns "..." into no pieces. */
  lemma ReplacePiecesSeparatorsOnly()
    ensures ReplacePieces("...") == []
  {
    DotsAreSeparators();
    ReplacePiecesOfSeparators("...");
  }

  /** Every character of "..." is a separator. */
  lemma DotsAreSeparators()
    ensures forall i :: 0 <= i < |"..."| ==> IsSeparator("..."[i])
  {
  }

  /** Mode 1 with "Cat, Dog" stores exactly "Cat" and "Dog". */
  lemma ReplaceAllCatDog(m: Dict, w: string)
    requires ValidInput(w) && w in m
    ensures ReplaceTranslation(m, w, Some("1"), Some("Cat, Dog"), None).words[w] == ["Cat", "Dog"]
  {
    ReplacePiecesCatDog();
  }

  /** Mode 1 with "..." leaves the word without translations. */
  lemma ReplaceAllSeparators(m: Dict, w: string)
    requires ValidInput(w) && w in m
    ensures ReplaceTranslation(m, w, Some("1"), Some("..."), None).words[w] == []
  {
    ReplacePiecesSeparatorsOnly();
  }

  /** " cat" passes the prompt's validity test. */
  lemma ValidLeadingSpaceCat()
    ensures ValidInput(" cat")
  {
    assert !IsWhiteSpace(" cat"[1]) && !IsDigit(" cat"[1]);
  }

  /** " cat" and "cat" are already lower case. */
  lemma LowerCat()
    ensures Lower(" cat") == " cat" && Lower("cat") == "cat"
  {
    LowerFixed(" cat");
    LowerFixed("cat");
  }

  /** Trimming " cat" gives "cat". */
  lemma TrimLeadingSpaceCat()
    ensures Trim(" cat") == "cat"
  {
    TrimLeadingWhiteSpace(' ', "cat");
    assert [' '] + "cat" == " cat";
  }

  /** " cat" is accepted, stored as typed, and searched as "cat". */
  lemma LeadingSpaceCat()
    ensures ValidInput(" cat") && Lower(" cat") == " cat" && Lower(Trim(" cat")) == "cat"
  {
    ValidLeadingSpaceCat();
    LowerCat();
    TrimLeadingSpaceCat();
  }
}

=== FILE: lists.dfy ===
/** The LINQ and `List<T>` operations the dictionary code applies to
    translation lists: `Except`, `Intersect`, `Contains`-guarded append,
    `IndexOf` and `Remove`. */
module Lists {

  /** The elements of a sequence as a set. */
  function Elems<T(==)>(xs: seq<T>): set<T> {
    set x | x in xs
  }

  /** No element occurs twice. */
  predicate NoDup<T(==)>(xs: seq<T>) {
    forall i, j :: 0 <= i < j < |xs| ==> xs[i] != xs[j]
  }

  /** `List<T>.IndexOf` for an element known to be present. */
  function FirstIndex<T(==)>(xs: seq<T>, x: T): (i: nat)
    requires x in xs
    ensures i < |xs| && xs[i] == x
  {
    if xs[0] == x then 0 else 1 + FirstIndex(xs[1..], x)
  }

  /** No occurrence of `x` precedes its first index. */
  lemma {:induction false} FirstIndexIsFirst<T>(xs: seq<T>, x: T)
    requires x in xs
    ensures forall k :: 0 <= k < FirstIndex(xs, x) ==> xs[k] != x
  {
    if xs[0] != x {
      FirstIndexIsFirst(xs[1..], x);
      assert forall k :: 1 <= k < FirstIndex(xs, x) ==> xs[k] == xs[1..][k - 1];
    }
  }

  /** A position holding `x` with no `x` before it is the first index. */
  lemma {:induction false} FirstIndexAt<T>(xs: seq<T>, x: T, i: nat)
    requires i < |xs| && xs[i] == x && x !in xs[..i]
    ensures x in xs && FirstIndex(xs, x) == i
  {
    assert xs[i] in xs;
    if i > 0 {
      assert xs[0] == xs[..i][0];
      assert xs[1..][i - 1] == x && xs[1..][..i - 1] == xs[..i][1..];
      FirstIndexAt(xs[1..], x, i - 1);
    }
  }

  /** `xs.Except(seen)`: the distinct elements of `xs` outside `seen`, in the
      order of their first occurrence (LINQ adds each yielded element to the
      excluded set). */
  function Except<T(==,!new)>(xs: seq<T>, seen: set<T>): (r: seq<T>)
    ensures forall x :: x in r <==> x in xs && x !in seen
    ensures NoDup(r)
  {
    if |xs| == 0 then []
    else if xs[0] in seen then Except(xs[1..], seen)
    else [xs[0]] + Except(xs[1..], seen + {xs[0]})
  }

  /** `xs.Intersect(keep)`: the distinct elements of `xs` inside `keep`, in
      the order of their first occurrence (LINQ removes each yielded element
      from the kept set). */
  function Intersect<T(==,!new)>(xs: seq<T>, keep: set<T>): (r: seq<T>)
    ensures forall x :: x in r <==> x in xs && x in keep
    ensures NoDup(r)
  {
    if |xs| == 0 then []
    else if xs[0] in keep then [xs[0]] + Intersect(xs[1..], keep - {xs[0]})
    else Intersect(xs[1..], keep)
  }

  /** Nothing is left of a sequence whose elements were all seen. */
  lemma ExceptAllSeen<T(!new)>(xs: seq<T>, seen: set<T>)
    requires forall x :: x in xs ==> x in seen
    ensures Except(xs, seen) == []
  {
  }

  /** Past a different head, the first index moves by one. */
  lemma FirstIndexTail<T>(xs: seq<T>, x: T)
    requires |xs| > 0 && x in xs && xs[0] != x
    ensures x in xs[1..] && FirstIndex(xs, x) == 1 + FirstIndex(xs[1..], x)
  {
  }

  /** `Except` lists its elements in the order in which they first occur in
      the input: an earlier element of the result first occurs earlier. */
  lemma {:induction false} ExceptKeepsFirstOccurrenceOrder<T(!new)>(xs: seq<T>, seen: set<T>, i: nat, j: nat)
    requires i < j < |Except(xs, seen)|
    ensures FirstIndex(xs, Except(xs, seen)[i]) < FirstIndex(xs, Except(xs, seen)[j])
    decreases |xs|, 1
  {
    if xs[0] in seen {
      ExceptOrderSeenHead(xs, seen, i, j);
    } else {
      ExceptOrderFreshHead(xs, seen, i, j);
    }
  }

  /** The induction step of the lemma above past an excluded head. */
  lemma {:induction false} ExceptOrderSeenHead<T(!new)>(xs: seq<T>, seen: set<T>, i: nat, j: nat)
    requires i < j < |Except(xs, seen)|
    requires xs[0] in seen
    ensures FirstIndex(xs, Except(xs, seen)[i]) < FirstIndex(xs, Except(xs, seen)[j])
    decreases |xs|, 0
  {
    var r := Except(xs[1..], seen);
    assert Except(xs, seen) == r;
    assert r[i] in r && r[j] in r;
    ExceptKeepsFirstOccurrenceOrder(xs[1..], seen, i, j);
    FirstIndexTail(xs, r[i]);
    FirstIndexTail(xs, r[j]);
  }

  /** The induction step of the lemma above past a yielded head. */
  lemma {:induction false} ExceptOrderFreshHead<T(!new)>(xs: seq<T>, seen: set<T>, i: nat, j: nat)
    requires i < j < |Except(xs, seen)|
    requires xs[0] !in seen
    ensures FirstIndex(xs, Except(xs, seen)[i]) < FirstIndex(xs, Except(xs, seen)[j])
    decreases |xs|, 0
  {
    FreshHeadLater(xs, seen, j);
    if i > 0 {
      FreshHeadLater(xs, seen, i);
      ExceptKeepsFirstOccurrenceOrder(xs[1..], seen + {xs[0]}, i - 1, j - 1);
    }
  }

  /** Past a yielded head, the `k`-th element of `Except` is the `k - 1`-th
      of the rest and first occurs one place later. */
  lemma FreshHeadLater<T(!new)>(xs: seq<T>, seen: set<T>, k: nat)
    requires 0 < k < |Except(xs, seen)|
    requires xs[0] !in seen
    ensures Except(xs, seen)[0] == xs[0]
    ensures k - 1 < |Except(xs[1..], seen + {xs[0]})|
    ensures Except(xs, seen)[k] == Except(xs[1..], seen + {xs[0]})[k - 1]
    ensures FirstIndex(xs, Except(xs, seen)[k]) == 1 + FirstIndex(xs[1..], Except(xs, seen)[k])
  {
    var rest := Except(xs[1..], seen + {xs[0]});
    assert Except(xs, seen) == [xs[0]] + rest;
    assert rest[k - 1] in rest;
    FirstIndexTail(xs, rest[k - 1]);
  }

  /** The `Contains`-guarded append loop: each element of `ys` is appended
      to `xs` unless the growing list already holds it. */
  function AppendMissing<T(==)>(xs: seq<T>, ys: seq<T>): (r: seq<T>)
    ensures |xs| <= |r| && r[..|xs|] == xs
    decreases |ys|
  {
    if |ys| == 0 then xs
    else AppendMissing(if ys[0] in xs then xs else xs + [ys[0]], ys[1..])
  }

  /** The append loop adds exactly what `Except` would: the distinct new
      elements in first-occurrence order. */
  lemma AppendMissingIsExcept<T(!new)>(xs: seq<T>, ys: seq<T>)
    ensures AppendMissing(xs, ys) == xs + Except(ys, Elems(xs))
  {
    AppendMissingIsExceptFrom(xs, ys, Elems(xs));
  }

  lemma {:induction false} AppendMissingIsExceptFrom<T(!new)>(xs: seq<T>, ys: seq<T>, seen: set<T>)
    requires forall x :: x in seen <==> x in xs
    ensures AppendMissing(xs, ys) == xs + Except(ys, seen)
    decreases |ys|, 1
  {
    if |ys| > 0 {
      if ys[0] in xs {
        assert AppendMissing(xs, ys) == AppendMissing(xs, ys[1..]);
        assert Except(ys, seen) == Except(ys[1..], seen);
        AppendMissingIsExceptFrom(xs, ys[1..], seen);
      } else {
        AppendMissingIsExceptFresh(xs, ys, seen);
      }
    }
  }

  /** The step of the induction above where the head of `ys` is new. */
  lemma {:induction false} AppendMissingIsExceptFresh<T(!new)>(xs: seq<T>, ys: seq<T>, seen: set<T>)
    requires forall x :: x in seen <==> x in xs
    requires |ys| > 0 && ys[0] !in xs
    ensures AppendMissing(xs, ys) == xs + Except(ys, seen)
    decreases |ys|, 0
  {
    var y := ys[0];
    SeenGrows(xs, seen, y);
    AppendMissingIsExceptFrom(xs + [y], ys[1..], seen + {y});
    FreshHeadJoin(xs, y, AppendMissing(xs, ys), Except(ys[1..], seen + {y}), Except(ys, seen));
  }

  /** Reassociates the two sides of the fresh-head step. */
  lemma FreshHeadJoin<T>(xs: seq<T>, y: T, appended: seq<T>, rest: seq<T>, excepted: seq<T>)
    requires appended == xs + [y] + rest && excepted == [y] + rest
    ensures appended == xs + excepted
  {
  }

  /** Appending an element to a list adds it to the set that mirrors it. */
  lemma SeenGrows<T>(xs: seq<T>, seen: set<T>, y: T)
    requires forall x :: x in seen <==> x in xs
    ensures forall x :: x in seen + {y} <==> x in xs + [y]
  {
    forall x
      ensures x in seen + {y} <==> x in xs + [y]
    {
      assert x in xs + [y] <==> x in xs || x == y;
    }
  }

  /** The append loop leaves every element of `ys` in the list and brings in
      nothing else. */
  lemma AppendMissingContents<T(!new)>(xs: seq<T>, ys: seq<T>)
    ensures forall y :: y in ys ==> y in AppendMissing(xs, ys)
    ensures forall z :: z in AppendMissing(xs, ys) ==> z in xs || z in ys
  {
    AppendMissingIsExcept(xs, ys);
  }

  /** A list without duplicates stays without duplicates. */
  lemma AppendMissingKeepsNoDup<T(!new)>(xs: seq<T>, ys: seq<T>)
    requires NoDup(xs)
    ensures NoDup(AppendMissing(xs, ys))
  {
    AppendMissingIsExcept(xs, ys);
    var e := Except(ys, Elems(xs));
    var r := xs + e;
    forall i, j | 0 <= i < j < |r|
      ensures r[i] != r[j]
    {
      if j >= |xs| {
        assert r[j] == e[j - |xs|];
        if i < |xs| {
          assert r[i] in Elems(xs);
        }
      }
    }
  }

  /** Appending what the list already holds changes nothing. */
  lemma {:induction false} AppendMissingAbsorbed<T>(xs: seq<T>, ys: seq<T>)
    requires forall y :: y in ys ==> y in xs
    ensures AppendMissing(xs, ys) == xs
    decreases |ys|
  {
    if |ys| > 0 {
      AppendMissingAbsorbed(xs, ys[1..]);
    }
  }

  /** `xs.Where(keep)`: the elements that satisfy `keep`, in order. */
  function Filter<T(!new)>(keep: T -> bool, xs: seq<T>): (r: seq<T>)
    ensures forall x :: x in r <==> x in xs && keep(x)
    ensures |r| <= |xs|
  {
    if |xs| == 0 then [] else (if keep(xs[0]) then [xs[0]] else []) + Filter(keep, xs[1..])
  }

  /** Filtering distributes over concatenation, so it keeps the order of
      the input. */
  lemma {:induction false} FilterAppend<T(!new)>(keep: T -> bool, a: seq<T>, b: seq<T>)
    ensures Filter(keep, a + b) == Filter(keep, a) + Filter(keep, b)
    decreases |a|
  {
    if |a| > 0 {
      assert (a + b)[0] == a[0] && (a + b)[1..] == a[1..] + b;
      FilterAppend(keep, a[1..], b);
    } else {
      assert a + b == b;
    }
  }

  /** `List<T>.Remove`: the first occurrence of `x` taken out. */
  function RemoveFirst<T(==)>(xs: seq<T>, x: T): (r: seq<T>)
    requires x in xs
    ensures |r| == |xs| - 1
    ensures multiset(r) == multiset(xs) - multiset{x}
    ensures exists i :: 0 <= i < |xs| && xs[i] == x && x !in xs[..i] && r == xs[..i] + xs[i + 1..]
  {
    var i := FirstIndex(xs, x);
    FirstIndexIsFirst(xs, x);
    assert x !in xs[..i];
    assert xs == xs[..i] + [x] + xs[i + 1..];
    xs[..i] + xs[i + 1..]
  }
}

=== FILE: menu.dfy ===
/** The parts of `Menu` that decide state: which dictionary names are
    accepted, how the registry of names grows, which dictionary is opened,
    and how an engine operation reaches the files
    (ExamDictionary/Menu.cs:52-146). Screens, prompts and the menu loops
    are not modelled. */
module Menu {
  import opened Outcomes
  import opened Text
  import opened Lists
  import opened Storage
  import opened Engine

  /** What the menu holds: the registry of dictionary names, the active
      dictionary's name and words, and the files on disk. */
  datatype Session = Session(registry: seq<string>, active: string, words: Dict, files: FileSystem)

  /** The name test (Menu.cs:74-77): not null or blank, not starting with a
      digit, only letters, digits and spaces, every character below 128.
      The letter test is ASCII-only, which the last condition makes exact. */
  predicate ValidName(input: Option<string>): (b: bool)
    ensures b ==> input.Some? && |input.value| > 0
  {
    && input.Some?
    && !IsBlank(input.value)
    && !IsDigit(input.value[0])
    && (forall i :: 0 <= i < |input.value| ==> IsAsciiLetterOrDigit(input.value[i]) || input.value[i] == ' ')
    && (forall i :: 0 <= i < |input.value| ==> input.value[i] as int < 128)
  }

  /** An accepted name holds no dot, slash, backslash or colon, so
      `name + ".json"` names a file in the working directory. */
  lemma ValidNameIsFileSafe(name: string)
    requires ValidName(Some(name))
    ensures forall i :: 0 <= i < |name| ==> name[i] != '.' && name[i] != '/' && name[i] != '\\' && name[i] != ':'
  {
  }

  datatype CreateOutcome = Exit | InvalidName | Duplicate | Created

  /** One pass of `CreateNewDictionary`: "0" leaves; a valid name not yet
      registered is appended to the registry, becomes active with whatever
      `name.json` held, and an empty dictionary is saved under it; any other
      input leaves the session as it was. */
  function CreateDictionary(st: Session, input: Option<string>): (r: (Session, CreateOutcome))
    ensures r.1 == Created <==> ValidName(input) && input.value !in st.registry
    ensures input == Some("0") ==> r == (st, Exit)
    ensures r.1 != Created ==> r.0 == st
    ensures r.1 == Created ==>
      && r.0.registry == st.registry + [input.value]
      && r.0.active == input.value
      && r.0.words == Load(st.files, JsonFile(input.value))
      && |input.value| > 0 && !IsDigit(input.value[0])
      && (forall i :: 0 <= i < |input.value| ==> input.value[i] as int < 128 && (IsAsciiLetterOrDigit(input.value[i]) || input.value[i] == ' '))
    ensures NoDup(st.registry) ==> NoDup(r.0.registry)
  {
    if input == Some("0") then (st, Exit)
    else if ValidName(input) then
      var name := input.value;
      if name !in st.registry then
        var files := Save(st.files, Some(map[]), name).value;
        (Session(st.registry + [name], name, Load(st.files, JsonFile(name)), files), Created)
      else (st, Duplicate)
    else (st, InvalidName)
  }

  /** Creating a dictionary writes `name.json` with the contents of the
      bare-name file (nothing, when there is none), since an empty
      dictionary is merged into it; no other file changes. */
  lemma CreateWritesBareFileContents(st: Session, name: string)
    requires ValidName(Some(name)) && name !in st.registry
    ensures var files := CreateDictionary(st, Some(name)).0.files;
      && files.Keys == st.files.Keys + {JsonFile(name)}
      && files[JsonFile(name)] == Load(st.files, name)
      && (forall f :: f in st.files && f != JsonFile(name) ==> files[f] == st.files[f])
  {
  }

  /** A name may start with a space; it may not start with a digit. */
  lemma NameExamples()
    ensures ValidName(Some(" Eng"))
    ensures !ValidName(Some("2eng"))
    ensures !ValidName(Some("en-gb"))
  {
    assert !IsWhiteSpace(" Eng"[1]);
    assert IsDigit("2eng"[0]);
    assert !IsAsciiLetterOrDigit("en-gb"[2]) && "en-gb"[2] != ' ';
  }

  datatype OpenOutcome = NoDictionaries | Back | Opened | UnknownName

  /** `ViewExistingDictionaries`: with a non-empty registry, a line equal to
      a registered name (exactly, case included) makes that dictionary
      active with the contents of its file; anything else changes nothing. */
  function OpenDictionary(st: Session, input: Option<string>): (r: (Session, OpenOutcome))
    ensures r.0.registry == st.registry && r.0.files == st.files
    ensures r.1 == Opened ==>
      && input.Some? && input.value in st.registry
      && r.0 == Session(st.registry, input.value, Load(st.files, JsonFile(input.value)), st.files)
    ensures input.Some? && input.value in st.registry && input.value != "0" && input.value != "" ==> r.1 == Opened
    ensures r.1 != Opened ==> r.0 == st
    ensures |st.registry| == 0 ==> r == (st, NoDictionaries)
  {
    if |st.registry| == 0 then (st, NoDictionaries)
    else if input.Some? && Lower(input.value) == "0" then
      LowerIsZeroOnlyForZero(input.value);
      (st, Back)
    else if input.Some? && input.value != "" && input.value in st.registry then
      var name := input.value;
      (Session(st.registry, name, Load(st.files, JsonFile(name)), st.files), Opened)
    else (st, UnknownName)
  }

  /** The registry lookup is case-sensitive. */
  lemma OpenIsCaseSensitive(st: Session)
    requires st.registry == ["Eng"]
    ensures OpenDictionary(st, Some("eng")) == (st, UnknownName)
  {
    assert "eng" != "Eng";
    assert Lower("eng") != "0";
  }

  /** An engine operation in the menu: the words it leaves become the
      active words and, when it saves, the files are saved under the active
      name. `Save` refuses a blank active name. */
  function Perform(st: Session, step: Step): (r: Result<Session, SaveError>)
    ensures r.Success? ==> r.value.registry == st.registry && r.value.active == st.active && r.value.words == step.words
    ensures !step.saves ==> r == Success(st.(words := step.words))
    ensures step.saves && IsBlank(st.active) ==> r == Failure(BlankName)
    ensures step.saves && !IsBlank(st.active) ==>
      r.Success? && r.value.files == st.files[JsonFile(st.active) := Merge(Load(st.files, st.active), step.words)]
  {
    match Commit(st.files, st.active, step)
    case Success(files) => Success(Session(st.registry, st.active, step.words, files))
    case Failure(e) => Failure(e)
  }

  /** After a dictionary is created, every engine operation's save succeeds
      and a saved dictionary can be reopened as it was left, as long as no
      bare-name file exists. */
  lemma CreatedSessionSaves(st: Session, name: string, step: Step)
    requires ValidName(Some(name)) && name !in st.registry && name !in st.files
    ensures var created := CreateDictionary(st, Some(name)).0;
      && Perform(created, step).Success?
      && (step.saves ==> Load(Perform(created, step).value.files, JsonFile(name)) == step.words)
  {
    var created := CreateDictionary(st, Some(name)).0;
    SaveReadsAnotherFile(name);
    assert name !in created.files;
    if step.saves {
      SaveThenLoad(created.files, step.words, name);
    }
  }
}

=== FILE: outcomes.dfy ===
/** Optional values and results with an error, used wherever the original
    program reads a nullable console line or reports a failure. */
module Outcomes {

  /** A value that may be missing; `None` stands for a null reference. */
  datatype Option<+T> = None | Some(value: T)

  /** Either a computed value or the reason it could not be computed. */
  datatype Result<+T, +E> = Success(value: T) | Failure(error: E)
}

=== FILE: phrase.dfy ===
/** `TranslatePhrase` (ExamDictionary/Dictionarys.cs:323-406): the phrase is
    cut into runs of white space and of other characters (the regular
    expression `\S+|\s+`), each run is translated on its own, and the
    outputs are joined again and capitalised. */
module Phrase {
  import opened Outcomes
  import opened Text
  import opened Lists
  import opened Storage
  import opened Engine

  // ---------------------------------------------------------------------
  // Tokens
  // ---------------------------------------------------------------------

  /** Length of the longest prefix of `s` whose characters are all white
      space or all not white space, like `s[0]`. */
  function RunLength(s: string): (n: nat)
    requires |s| > 0
    ensures 1 <= n <= |s|
    ensures forall i :: 0 <= i < n ==> IsWhiteSpace(s[i]) == IsWhiteSpace(s[0])
    ensures n < |s| ==> IsWhiteSpace(s[n]) != IsWhiteSpace(s[0])
  {
    if |s| == 1 || IsWhiteSpace(s[1]) != IsWhiteSpace(s[0]) then 1 else 1 + RunLength(s[1..])
  }

  /** A token is a white-space run or a run without white space. */
  predicate Uniform(t: string) {
    IsBlank(t) || NoWhiteSpace(t)
  }

  /** The matches of `\S+|\s+`, left to right: maximal runs, so two
      neighbouring tokens are never of the same kind. */
  function Tokenize(s: string): (ts: seq<string>)
    ensures |s| > 0 <==> |ts| > 0
    ensures |ts| > 0 ==> |ts[0]| > 0 && ts[0][0] == s[0]
    ensures forall k :: 0 <= k < |ts| ==> |ts[k]| > 0 && Uniform(ts[k])
    ensures forall k :: 0 <= k < |ts| - 1 ==> IsWhiteSpace(ts[k][0]) != IsWhiteSpace(ts[k + 1][0])
    decreases |s|
  {
    if |s| == 0 then []
    else
      var n := RunLength(s);
      [s[..n]] + Tokenize(s[n..])
  }

  /** The tokens lose nothing: concatenated they give back the phrase. */
  lemma {:induction false} TokenizeConcat(s: string)
    ensures Concat(Tokenize(s)) == s
    decreases |s|
  {
    if |s| > 0 {
      var n := RunLength(s);
      TokenizeConcat(s[n..]);
      assert Tokenize(s)[1..] == Tokenize(s[n..]);
      assert s == s[..n] + s[n..];
    }
  }

  /** The tokens tile `phrase`: non-empty, and concatenated they are it. */
  predicate Tiles(phrase: string, tokens: seq<string>) {
    Concat(tokens) == phrase && forall k :: 0 <= k < |tokens| ==> |tokens[k]| > 0
  }

  lemma TokenizeTiles(s: string)
    ensures Tiles(s, Tokenize(s))
  {
    TokenizeConcat(s);
  }

  /** Where token `i` starts in the phrase the tokens tile. */
  function Offset(tokens: seq<string>, i: nat): nat
    requires i <= |tokens|
  {
    |Concat(tokens[..i])|
  }

  /** Token `i` occurs in the phrase at its offset, and at least one more
      character follows it unless it is the last token. */
  lemma {:induction false} TokenAtOffset(phrase: string, tokens: seq<string>, i: nat)
    requires Tiles(phrase, tokens) && i < |tokens|
    ensures OccursAt(phrase, tokens[i], Offset(tokens, i))
    ensures i + 1 < |tokens| ==> Offset(tokens, i) + |tokens[i]| < |phrase|
  {
    var pre, post := tokens[..i], tokens[i + 1..];
    assert tokens == pre + ([tokens[i]] + post);
    ConcatAppend(pre, [tokens[i]] + post);
    ConcatAppend([tokens[i]], post);
    assert Concat([tokens[i]]) == tokens[i] + Concat([]);
    if i + 1 < |tokens| {
      assert post == [tokens[i + 1]] + post[1..];
      ConcatAppend([tokens[i + 1]], post[1..]);
      assert Concat([tokens[i + 1]]) == tokens[i + 1] + Concat([]);
    }
  }

  // ---------------------------------------------------------------------
  // Per-token translation
  // ---------------------------------------------------------------------

  /** What one token turns into, and whether it is reported as untranslated. */
  datatype Rendered = Rendered(text: string, missed: bool)

  /** A token is translated when its lower-cased form is a word with at
      least one translation (the first is used). White space passes
      through; so does a token whose first character is punctuation, even
      when letters follow. Anything else passes through as a miss. */
  function TranslateToken(m: Dict, tok: string): (r: Rendered)
    ensures IsBlank(tok) ==> r == Rendered(tok, false)
    ensures !IsBlank(tok) && IsPunctuation(tok[0]) ==> r == Rendered(tok, false)
    ensures !IsBlank(tok) && !IsPunctuation(tok[0]) && Lower(tok) in m && |m[Lower(tok)]| > 0 ==>
      r == Rendered(m[Lower(tok)][0], false)
    ensures r.text == tok || (Lower(tok) in m && |m[Lower(tok)]| > 0 && r.text == m[Lower(tok)][0])
    ensures r.missed <==> !IsBlank(tok) && !IsPunctuation(tok[0]) && !(Lower(tok) in m && |m[Lower(tok)]| > 0)
  {
    if IsBlank(tok) then Rendered(tok, false)
    else if IsPunctuation(tok[0]) then Rendered(tok, false)
    else
      var w := Lower(tok);
      if w in m && |m[w]| > 0 then Rendered(m[w][0], false) else Rendered(tok, true)
  }

  /** The tokens reported as untranslated, in phrase order. */
  function Misses(m: Dict, tokens: seq<string>): (r: seq<string>)
    ensures forall t :: t in r <==> t in tokens && TranslateToken(m, t).missed
    ensures |r| <= |tokens|
  {
    Filter(t => TranslateToken(m, t).missed, tokens)
  }

  /** The misses of two token runs are the misses of the first followed by
      those of the second, so the misses keep phrase order. */
  lemma MissesAppend(m: Dict, a: seq<string>, b: seq<string>)
    ensures Misses(m, a + b) == Misses(m, a) + Misses(m, b)
  {
    FilterAppend(t => TranslateToken(m, t).missed, a, b);
  }

  // ---------------------------------------------------------------------
  // Reassembly
  // ---------------------------------------------------------------------

  /** The source appends `" "` after the output of token `i` (not the last)
      when the character after the FIRST occurrence of that token in the
      phrase is white space. The index is always inside the phrase. */
  predicate ExtraSpace(phrase: string, tokens: seq<string>, i: nat): (b: bool)
    requires Tiles(phrase, tokens) && i < |tokens|
    ensures b ==> i + 1 < |tokens|
    ensures 0 <= IndexOf(phrase, tokens[i]) <= Offset(tokens, i)
  {
    TokenAtOffset(phrase, tokens, i);
    i + 1 < |tokens| && IsWhiteSpace(phrase[IndexOf(phrase, tokens[i]) + |tokens[i]|])
  }

  /** Output `i` followed by the extra space the source may add after it. */
  function Piece(phrase: string, tokens: seq<string>, outputs: seq<string>, i: nat): string
    requires Tiles(phrase, tokens) && |outputs| == |tokens| && i < |tokens|
  {
    outputs[i] + (if ExtraSpace(phrase, tokens, i) then " " else "")
  }

  /** The `StringBuilder` loop from token `i` on. */
  function Assemble(phrase: string, tokens: seq<string>, outputs: seq<string>, i: nat): (r: string)
    requires Tiles(phrase, tokens) && |outputs| == |tokens| && i <= |tokens|
    ensures |r| <= |Concat(outputs[i..])| + (|tokens| - i)
    decreases |tokens| - i
  {
    if i == |tokens| then []
    else
      assert outputs[i..] == [outputs[i]] + outputs[i + 1..];
      ConcatAppend([outputs[i]], outputs[i + 1..]);
      assert Concat([outputs[i]]) == outputs[i] + Concat([]);
      Piece(phrase, tokens, outputs, i) + Assemble(phrase, tokens, outputs, i + 1)
  }

  /** Upper-cases the first character only. */
  function Capitalize(s: string): (r: string)
    ensures |r| == |s|
    ensures |s| > 0 ==> r[0] == UpperChar(s[0]) && r[1..] == s[1..]
  {
    if |s| == 0 then s else [UpperChar(s[0])] + s[1..]
  }

  // ---------------------------------------------------------------------
  // The whole translation
  // ---------------------------------------------------------------------

  datatype Translation = Translation(tokens: seq<string>, outputs: seq<string>, misses: seq<string>, text: string)

  /** The outputs of the tokens, one each, in order. */
  function Outputs(m: Dict, tokens: seq<string>): (r: seq<string>)
    ensures |r| == |tokens|
    ensures forall i :: 0 <= i < |tokens| ==> r[i] == TranslateToken(m, tokens[i]).text
  {
    seq(|tokens|, i requires 0 <= i < |tokens| => TranslateToken(m, tokens[i]).text)
  }

  /** `TranslatePhrase` as written: an invalid phrase is refused (the
      prompt asks again); otherwise the tokens are translated and
      reassembled with the extra-space rule, and the result capitalised.
      The dictionary is only read. */
  function TranslatePhrase(m: Dict, phrase: string): (r: Result<Translation, Reason>)
    ensures !ValidInput(phrase) <==> r == Failure(InvalidInput)
    ensures r.Success? ==>
      && r.value.tokens == Tokenize(phrase)
      && Tiles(phrase, r.value.tokens)
      && |r.value.outputs| == |r.value.tokens|
      && (forall i :: 0 <= i < |r.value.tokens| ==> Uniform(r.value.tokens[i]))
      && (forall i :: 0 <= i < |r.value.tokens| ==> r.value.outputs[i] == TranslateToken(m, r.value.tokens[i]).text)
      && (forall t :: t in r.value.misses <==> t in r.value.tokens && TranslateToken(m, t).missed)
      && r.value.text == Capitalize(Assemble(phrase, r.value.tokens, r.value.outputs, 0))
  {
    if !ValidInput(phrase) then Failure(InvalidInput)
    else
      var tokens := Tokenize(phrase);
      TokenizeTiles(phrase);
      var outputs := Outputs(m, tokens);
      Success(Translation(tokens, outputs, Misses(m, tokens), Capitalize(Assemble(phrase, tokens, outputs, 0))))
  }

  /** The assembled text is the outputs in order, each followed by the
      extra space the first-occurrence rule decides. */
  lemma {:induction false} AssembleIsPieces(phrase: string, tokens: seq<string>, outputs: seq<string>, i: nat)
    requires Tiles(phrase, tokens) && |outputs| == |tokens| && i <= |tokens|
    ensures Assemble(phrase, tokens, outputs, i)
         == Concat(seq(|tokens| - i, k requires 0 <= k < |tokens| - i => Piece(phrase, tokens, outputs, i + k)))
    decreases |tokens| - i
  {
    if i < |tokens| {
      AssembleIsPieces(phrase, tokens, outputs, i + 1);
      PiecesTail(phrase, tokens, outputs, i);
    }
  }

  /** The pieces from `i` on are piece `i` followed by the pieces from
      `i + 1` on. */
  lemma PiecesTail(phrase: string, tokens: seq<string>, outputs: seq<string>, i: nat)
    requires Tiles(phrase, tokens) && |outputs| == |tokens| && i < |tokens|
    ensures var ps := seq(|tokens| - i, k requires 0 <= k < |tokens| - i => Piece(phrase, tokens, outputs, i + k));
      && ps[0] == Piece(phrase, tokens, outputs, i)
      && ps[1..] == seq(|tokens| - (i + 1), k requires 0 <= k < |tokens| - (i + 1) => Piece(phrase, tokens, outputs, i + 1 + k))
  {
  }

  /** The extra-space rule only adds characters: the assembled text is never
      shorter than the outputs joined. */
  lemma {:induction false} AssembleAtLeastOutputs(phrase: string, tokens: seq<string>, outputs: seq<string>, i: nat)
    requires Tiles(phrase, tokens) && |outputs| == |tokens| && i <= |tokens|
    ensures |Assemble(phrase, tokens, outputs, i)| >= |Concat(outputs[i..])|
    decreases |tokens| - i
  {
    if i < |tokens| {
      AssembleAtLeastOutputs(phrase, tokens, outputs, i + 1);
      assert outputs[i..] == [outputs[i]] + outputs[i + 1..];
      ConcatAppend([outputs[i]], outputs[i + 1..]);
      assert Concat([outputs[i]]) == outputs[i] + Concat([]);
    }
  }

  // ---------------------------------------------------------------------
  // The extra space (see "Findings" in the README)
  // ---------------------------------------------------------------------

  /** The reassembly the code evidently intends: outputs joined as they are,
      so every white-space run of the phrase appears exactly once. */
  function TranslatePhraseExact(m: Dict, phrase: string): (r: Result<Translation, Reason>)
    ensures !ValidInput(phrase) <==> r == Failure(InvalidInput)
    ensures r.Success? ==>
      && r.value.tokens == Tokenize(phrase)
      && Tiles(phrase, r.value.tokens)
      && r.value.outputs == Outputs(m, r.value.tokens)
      && (forall t :: t in r.value.misses <==> t in r.value.tokens && TranslateToken(m, t).missed)
      && r.value.text == Capitalize(Concat(r.value.outputs))
  {
    if !ValidInput(phrase) then Failure(InvalidInput)
    else
      var tokens := Tokenize(phrase);
      TokenizeTiles(phrase);
      var outputs := Outputs(m, tokens);
      Success(Translation(tokens, outputs, Misses(m, tokens), Capitalize(Concat(outputs))))
  }

  /** With the intended reassembly a phrase whose tokens all render as
      themselves (none has a translation in `m`) comes back unchanged apart
      from its first letter: every white-space run appears exactly once. */
  lemma ExactKeepsUntranslatedPhrase(m: Dict, phrase: string)
    requires ValidInput(phrase)
    requires forall k :: 0 <= k < |Tokenize(phrase)| ==> TranslateToken(m, Tokenize(phrase)[k]).text == Tokenize(phrase)[k]
    ensures TranslatePhraseExact(m, phrase).Success?
    ensures TranslatePhraseExact(m, phrase).value.text == Capitalize(phrase)
  {
    TranslatedTexts(m, phrase);
    TokenizeConcat(phrase);
    OutputsOfSelfRenderingTokens(m, Tokenize(phrase));
  }

  /** Tokens that all render as themselves are their own outputs. */
  lemma OutputsOfSelfRenderingTokens(m: Dict, tokens: seq<string>)
    requires forall k :: 0 <= k < |tokens| ==> TranslateToken(m, tokens[k]).text == tokens[k]
    ensures Outputs(m, tokens) == tokens
  {
  }

  /** Where no word has a translation every token passes through unchanged. */
  lemma OutputsWithoutTranslations(m: Dict, tokens: seq<string>)
    requires forall k :: k in m ==> |m[k]| == 0
    ensures Outputs(m, tokens) == tokens
  {
  }

  /** Without an extra space the loop only joins the outputs. */
  lemma {:induction false} AssembleWithoutExtraSpace(phrase: string, tokens: seq<string>, outputs: seq<string>, i: nat)
    requires Tiles(phrase, tokens) && |outputs| == |tokens| && i <= |tokens|
    requires forall k :: i <= k < |tokens| ==> !ExtraSpace(phrase, tokens, k)
    ensures Assemble(phrase, tokens, outputs, i) == Concat(outputs[i..])
    decreases |tokens| - i
  {
    if i < |tokens| {
      AssembleWithoutExtraSpace(phrase, tokens, outputs, i + 1);
      assert outputs[i..] == [outputs[i]] + outputs[i + 1..];
      ConcatAppend([outputs[i]], outputs[i + 1..]);
      assert Concat([outputs[i]]) == outputs[i] + Concat([]);
    }
  }

  /** The two reassemblies differ only by the extra spaces: when the rule
      never fires, the text as written is the intended one. */
  lemma ExactAgreesWithoutExtraSpace(m: Dict, phrase: string)
    requires ValidInput(phrase)
    ensures TranslatePhrase(m, phrase).Success? && TranslatePhraseExact(m, phrase).Success?
    ensures Tiles(phrase, Tokenize(phrase))
    ensures (forall k :: 0 <= k < |Tokenize(phrase)| ==> !ExtraSpace(phrase, Tokenize(phrase), k)) ==>
      TranslatePhrase(m, phrase).value.text == TranslatePhraseExact(m, phrase).value.text
  {
    TranslatedTexts(m, phrase);
    var tokens := Tokenize(phrase);
    if forall k :: 0 <= k < |tokens| ==> !ExtraSpace(phrase, tokens, k) {
      AssembleWithoutExtraSpace(phrase, tokens, Outputs(m, tokens), 0);
      assert Outputs(m, tokens)[0..] == Outputs(m, tokens);
    }
  }

  /** The text of an accepted phrase, as written and as intended. */
  lemma TranslatedTexts(m: Dict, phrase: string)
    requires ValidInput(phrase)
    ensures TranslatePhrase(m, phrase).Success? && TranslatePhraseExact(m, phrase).Success?
    ensures Tiles(phrase, Tokenize(phrase))
    ensures var tokens := Tokenize(phrase);
      && TranslatePhrase(m, phrase).value.text == Capitalize(Assemble(phrase, tokens, Outputs(m, tokens), 0))
      && TranslatePhraseExact(m, phrase).value.text == Capitalize(Concat(Outputs(m, tokens)))
  {
    TokenizeTiles(phrase);
  }

  // Worked example: the phrase "a b" with an empty dictionary, one fact per
  // lemma, for AsWrittenDoublesSpace.

  /** "a b" is the three tokens "a", " ", "b". */
  lemma TokenizeAB()
    ensures Tokenize("a b") == ["a", " ", "b"]
  {
    assert RunLength("b") == 1;
    assert "b"[..1] == "b" && "b"[1..] == "";
    assert Tokenize("b") == ["b"] + Tokenize("");
    assert RunLength(" b") == 1;
    assert " b"[..1] == " " && " b"[1..] == "b";
    assert Tokenize(" b") == [" "] + Tokenize("b");
    assert RunLength("a b") == 1;
    assert "a b"[..1] == "a" && "a b"[1..] == " b";
    assert Tokenize("a b") == ["a"] + Tokenize(" b");
  }

  /** The three tokens tile "a b". */
  lemma TilesAB()
    ensures Tiles("a b", ["a", " ", "b"])
  {
    assert Concat(["a", " ", "b"]) == "a" + Concat([" ", "b"]);
    assert Concat([" ", "b"]) == " " + Concat(["b"]);
    assert Concat(["b"]) == "b" + Concat([]);
  }

  /** In "a b" the extra-space rule fires after "a" only. */
  lemma ExtraSpacesAB()
    ensures Tiles("a b", ["a", " ", "b"])
    ensures ExtraSpace("a b", ["a", " ", "b"], 0)
    ensures !ExtraSpace("a b", ["a", " ", "b"], 1)
    ensures !ExtraSpace("a b", ["a", " ", "b"], 2)
  {
    TilesAB();
    assert IndexOf("a b", "a") == 0 by { assert OccursAt("a b", "a", 0); }
    assert IndexOf("a b", " ") == 1 by {
      assert OccursAt("a b", " ", 1);
      assert !OccursAt("a b", " ", 0) by { assert "a b"[0..1] == "a"; }
    }
    assert IsWhiteSpace("a b"[1]) && !IsWhiteSpace("a b"[2]);
  }

  /** As written, the loop rebuilds "a b" as "a  b". */
  lemma AssembleAB()
    ensures Tiles("a b", ["a", " ", "b"])
    ensures Assemble("a b", ["a", " ", "b"], ["a", " ", "b"], 0) == "a  b"
  {
    var tokens: seq<string> := ["a", " ", "b"];
    ExtraSpacesAB();
    assert Assemble("a b", tokens, tokens, 3) == [];
    assert Assemble("a b", tokens, tokens, 2) == "b";
    assert Assemble("a b", tokens, tokens, 1) == " b";
    assert Assemble("a b", tokens, tokens, 0) == "a " + " b";
  }

  /** "a b" passes the prompt's validity test. */
  lemma ValidAB()
    ensures ValidInput("a b")
  {
    assert !IsWhiteSpace("a b"[0]) && !IsDigit("a b"[0]);
  }

  /** Capitalising the two rebuilt texts. */
  lemma CapitalizeAB()
    ensures Capitalize("a  b") == "A  b" && Capitalize("a b") == "A b"
  {
    assert UpperChar('a') == 'A';
  }

  /** As written, the phrase "a b" with an empty dictionary comes out as
      "A  b": the space after "a" is emitted twice, once as the white-space
      token and once by the extra-space rule; the intended reassembly gives
      "A b". */
  lemma AsWrittenDoublesSpace()
    ensures TranslatePhrase(map[], "a b").Success?
    ensures TranslatePhrase(map[], "a b").value.text == "A  b"
    ensures TranslatePhraseExact(map[], "a b").value.text == "A b"
  {
    var tokens: seq<string> := ["a", " ", "b"];
    ValidAB();
    TokenizeAB();
    OutputsWithoutTranslations(map[], tokens);
    AssembleAB();
    TilesAB();
    TranslatedTexts(map[], "a b");
    CapitalizeAB();
  }

  // ---------------------------------------------------------------------
  // Export of the translated phrase (Dictionarys.cs:382-405)
  // ---------------------------------------------------------------------

  /** The optional export: the whole phrase becomes a key whose only
      translation is the result, replacing any earlier entry for it in the
      target file before `Save` merges into the bare-name file. */
  function ExportPhrase(fs: FileSystem, phrase: string, result: string, destination: Option<string>): (r: FileSystem)
    ensures destination.None? || IsBlank(Trim(destination.value)) ==> r == fs
    ensures destination.Some? && !IsBlank(Trim(destination.value)) ==>
      var n := Trim(destination.value);
      && r.Keys == fs.Keys + {JsonFile(n)}
      && (forall f :: f in fs && f != JsonFile(n) ==> r[f] == fs[f])
  {
    if destination.None? || IsBlank(Trim(destination.value)) then fs
    else
      var name := Trim(destination.value);
      Save(fs, Some(Load(fs, JsonFile(name))[phrase := [result]]), name).value
  }

  /** With no bare-name file, the exported file maps the phrase to the result
      alone and keeps every other entry it had. */
  lemma ExportPhraseOverwrites(fs: FileSystem, phrase: string, result: string, name: string)
    requires !IsBlank(Trim(name)) && Trim(name) !in fs
    ensures var saved := Load(ExportPhrase(fs, phrase, result, Some(name)), JsonFile(Trim(name)));
      var before := Load(fs, JsonFile(Trim(name)));
      && saved[phrase] == [result]
      && (forall k :: k in before && k != phrase ==> k in saved && saved[k] == before[k])
  {
    var n := Trim(name);
    SaveThenLoad(fs, Load(fs, JsonFile(n))[phrase := [result]], n);
  }
}

=== FILE: storage.dfy ===
/** `FileStorage`: dictionaries kept as files, and the merge that `Save`
    performs before writing (ExamDictionary/Manager.cs:36-88). Files are
    modelled as already-parsed contents keyed by file name; reading and
    writing JSON text is not part of this model. */
module Storage {
  import opened Outcomes
  import opened Text
  import opened Lists

  /** A dictionary: each word mapped to its ordered list of translations. */
  type Dict = map<string, seq<string>>

  // ---------------------------------------------------------------------
  // Merge-on-save
  // ---------------------------------------------------------------------

  /** The list `Save` keeps for key `k`: an existing list absorbs the
      incoming translations it lacks; a new key gets a copy of the incoming
      list; a key only in `existing` is left alone. */
  function MergeEntry(existing: Dict, incoming: Dict, k: string): seq<string>
    requires k in existing || k in incoming
  {
    if k !in incoming then existing[k]
    else if k in existing then AppendMissing(existing[k], incoming[k])
    else incoming[k]
  }

  /** The dictionary `Save` writes: `incoming` merged into `existing`. The
      source loops over the incoming keys, but each step touches one key
      only, so the result does not depend on the enumeration order (see
      `MergeInOrder`). */
  function Merge(existing: Dict, incoming: Dict): (r: Dict)
    ensures r.Keys == existing.Keys + incoming.Keys
  {
    map k | k in existing.Keys + incoming.Keys :: MergeEntry(existing, incoming, k)
  }

  /** Merging never removes anything: every existing key survives and its
      list is a prefix of the merged list. */
  lemma MergeKeepsExisting(existing: Dict, incoming: Dict, k: string)
    requires k in existing
    ensures k in Merge(existing, incoming)
    ensures |existing[k]| <= |Merge(existing, incoming)[k]|
    ensures Merge(existing, incoming)[k][..|existing[k]|] == existing[k]
  {
  }

  /** A key the incoming dictionary does not mention keeps its list exactly. */
  lemma MergeLeavesOthers(existing: Dict, incoming: Dict, k: string)
    requires k in existing && k !in incoming
    ensures Merge(existing, incoming)[k] == existing[k]
  {
  }

  /** A shared key receives, after its existing list, exactly the distinct
      incoming translations it lacked, in their incoming order; so every
      incoming translation ends up in the list and a duplicate-free list
      stays duplicate-free. */
  lemma MergeSharedKey(existing: Dict, incoming: Dict, k: string)
    requires k in existing && k in incoming
    ensures Merge(existing, incoming)[k] == existing[k] + Except(incoming[k], Elems(existing[k]))
    ensures forall t :: t in incoming[k] ==> t in Merge(existing, incoming)[k]
    ensures NoDup(existing[k]) ==> NoDup(Merge(existing, incoming)[k])
  {
    AppendMissingIsExcept(existing[k], incoming[k]);
    if NoDup(existing[k]) {
      AppendMissingKeepsNoDup(existing[k], incoming[k]);
    }
  }

  /** A key new to `existing` gets a verbatim copy of the incoming list. */
  lemma MergeNewKey(existing: Dict, incoming: Dict, k: string)
    requires k !in existing && k in incoming
    ensures Merge(existing, incoming)[k] == incoming[k]
  {
  }

  /** Merging into an empty dictionary writes the incoming one unchanged. */
  lemma MergeIntoEmpty(incoming: Dict)
    ensures Merge(map[], incoming) == incoming
  {
  }

  /** Every translation the incoming dictionary holds is in the merged one. */
  lemma MergeContainsIncoming(existing: Dict, incoming: Dict, k: string, t: string)
    requires k in incoming && t in incoming[k]
    ensures k in Merge(existing, incoming) && t in Merge(existing, incoming)[k]
  {
    if k in existing {
      AppendMissingContents(existing[k], incoming[k]);
    }
  }

  /** Saving the same dictionary twice writes what saving it once wrote. */
  lemma MergeIdempotent(existing: Dict, incoming: Dict)
    ensures Merge(Merge(existing, incoming), incoming) == Merge(existing, incoming)
  {
    var once := Merge(existing, incoming);
    var twice := Merge(once, incoming);
    forall k | k in twice
      ensures twice[k] == once[k]
    {
      if k in incoming {
        if k in existing {
          AppendMissingContents(existing[k], incoming[k]);
        }
        AppendMissingAbsorbed(once[k], incoming[k]);
      }
    }
  }

  /** The dictionary after the merge loop has handled the incoming keys in
      `done` and no others. */
  function MergedSoFar(existing: Dict, incoming: Dict, done: set<string>): (r: Dict)
    requires done <= incoming.Keys
    ensures r.Keys == existing.Keys + done
  {
    map k | k in existing.Keys + done ::
      if k in done then MergeEntry(existing, incoming, k) else existing[k]
  }

  /** One turn of the merge loop handles one more key. */
  lemma MergedSoFarStep(existing: Dict, incoming: Dict, done: set<string>, k: string)
    requires done <= incoming.Keys && k in incoming && k !in done
    ensures var r := MergedSoFar(existing, incoming, done);
      MergedSoFar(existing, incoming, done + {k})
        == if k in r then r[k := AppendMissing(r[k], incoming[k])] else r[k := incoming[k]]
  {
  }

  /** Once every incoming key is handled, the loop has computed `Merge`. */
  lemma MergedSoFarAll(existing: Dict, incoming: Dict)
    ensures MergedSoFar(existing, incoming, incoming.Keys) == Merge(existing, incoming)
  {
  }

  /** The source's merge loop, one incoming key at a time in the order the
      runtime enumerates them. Whatever that order, the result is `Merge`. */
  method MergeInOrder(existing: Dict, incoming: Dict, order: seq<string>) returns (r: Dict)
    requires Elems(order) == incoming.Keys && NoDup(order)
    ensures r == Merge(existing, incoming)
  {
    r := existing;
    var n := 0;
    assert Elems(order[..0]) == {};
    while n < |order|
      invariant 0 <= n <= |order|
      invariant Elems(order[..n]) <= incoming.Keys
      invariant r == MergedSoFar(existing, incoming, Elems(order[..n]))
    {
      var k := order[n];
      ElemsPrefixStep(order, n);
      MergedSoFarStep(existing, incoming, Elems(order[..n]), k);
      if k in r {
        r := r[k := AppendMissing(r[k], incoming[k])];
      } else {
        r := r[k := incoming[k]];
      }
      n := n + 1;
    }
    assert order[..n] == order;
    MergedSoFarAll(existing, incoming);
  }

  /** Growing a duplicate-free prefix by one adds exactly one new element. */
  lemma ElemsPrefixStep(order: seq<string>, n: nat)
    requires NoDup(order) && n < |order|
    ensures order[n] !in Elems(order[..n])
    ensures Elems(order[..n + 1]) == Elems(order[..n]) + {order[n]}
  {
    assert order[..n + 1] == order[..n] + [order[n]];
  }

  // ---------------------------------------------------------------------
  // Files
  // ---------------------------------------------------------------------

  /** The files on disk, by name, with their parsed contents. */
  type FileSystem = map<string, Dict>

  /** `Load`: the parsed file, or an empty dictionary when it is missing. */
  function Load(fs: FileSystem, file: string): (r: Dict)
    ensures file !in fs ==> r == map[]
  {
    if file in fs then fs[file] else map[]
  }

  /** The file a dictionary named `name` is written to and opened from. */
  function JsonFile(name: string): string {
    name + ".json"
  }

  /** The argument check at the top of `Save`. */
  datatype SaveError = MissingDictionary | BlankName

  /** `Save(newWords, name)`: reject a null dictionary or a blank name,
      otherwise merge into what `Load(name)` returns and write the result to
      `name + ".json"`. As written, the file read (the bare name) is not the
      file written. */
  function Save(fs: FileSystem, incoming: Option<Dict>, name: string): (r: Result<FileSystem, SaveError>)
    ensures incoming.None? ==> r == Failure(MissingDictionary)
    ensures incoming.Some? && IsBlank(name) ==> r == Failure(BlankName)
    ensures r.Success? <==> incoming.Some? && !IsBlank(name)
    ensures r.Success? ==> r.value.Keys == fs.Keys + {JsonFile(name)}
    ensures r.Success? ==> forall f :: f in fs && f != JsonFile(name) ==> r.value[f] == fs[f]
  {
    if incoming.None? then Failure(MissingDictionary)
    else if IsBlank(name) then Failure(BlankName)
    else Success(fs[JsonFile(name) := Merge(Load(fs, name), incoming.value)])
  }

  /** The file `Save` reads is never the file it writes. */
  lemma SaveReadsAnotherFile(name: string)
    ensures JsonFile(name) != name
  {
    assert |JsonFile(name)| == |name| + 5;
  }

  /** Reopening a saved dictionary yields the merge of the bare-name file
      into the saved one; with no bare-name file, exactly what was saved. */
  lemma SaveThenLoad(fs: FileSystem, words: Dict, name: string)
    requires !IsBlank(name)
    ensures Save(fs, Some(words), name).Success?
    ensures Load(Save(fs, Some(words), name).value, JsonFile(name)) == Merge(Load(fs, name), words)
    ensures name !in fs ==> Load(Save(fs, Some(words), name).value, JsonFile(name)) == words
  {
    if name !in fs {
      MergeIntoEmpty(words);
    }
  }

  /** Saving a dictionary twice leaves the same files as saving it once,
      because the merge source (the bare-name file) is not touched. */
  lemma SaveTwiceSameFiles(fs: FileSystem, words: Dict, name: string)
    requires !IsBlank(name)
    ensures Save(fs, Some(words), name).Success?
    ensures Save(Save(fs, Some(words), name).value, Some(words), name) == Save(fs, Some(words), name)
  {
    SaveReadsAnotherFile(name);
    var once := Save(fs, Some(words), name).value;
    assert Load(once, name) == Load(fs, name);
    assert once[JsonFile(name) := Merge(Load(fs, name), words)] == once;
  }
}

=== FILE: text.dfy ===
/** Character classes and string helpers of the .NET base library that the
    dictionary code relies on: white space, digits, punctuation, case mapping,
    `Trim`, `string.IsNullOrWhiteSpace`, `Split` on `,` and `.`, and ordinal
    `IndexOf`. */
module Text {

  // ---------------------------------------------------------------------
  // Character classes
  // ---------------------------------------------------------------------

  /** `char.IsWhiteSpace`, which within the Basic Multilingual Plane is the
      same set as the regular-expression class `\s`: the layout controls
      U+0009..U+000D, U+0085 and the Unicode separators. */
  predicate IsWhiteSpace(c: char) {
    var n := c as int;
    (9 <= n <= 13) || n == 0x20 || n == 0x85 || n == 0xA0 || n == 0x1680
    || (0x2000 <= n <= 0x200A) || n == 0x2028 || n == 0x2029
    || n == 0x202F || n == 0x205F || n == 0x3000
  }

  /** `char.IsDigit`, restricted to the ASCII decimal digits. */
  predicate IsDigit(c: char) {
    '0' <= c <= '9'
  }

  /** ASCII letters and digits; together with the `c < 128` test of the
      name validator this is exactly `char.IsLetterOrDigit`. */
  predicate IsAsciiLetterOrDigit(c: char) {
    ('a' <= c <= 'z') || ('A' <= c <= 'Z') || IsDigit(c)
  }

  /** `char.IsPunctuation` on ASCII, Latin-1 and the General Punctuation
      block (the characters of categories Pc, Pd, Ps, Pe, Pi, Pf and Po). */
  predicate IsPunctuation(c: char) {
    var n := c as int;
    c in "!\"#%&'()*,-./:;?@[\\]_{}"
    || n == 0xA1 || n == 0xA7 || n == 0xAB || n == 0xB6 || n == 0xB7 || n == 0xBB || n == 0xBF
    || (0x2010 <= n <= 0x2027) || (0x2030 <= n <= 0x2043) || (0x2045 <= n <= 0x2051)
    || (0x2053 <= n <= 0x205E)
  }

  /** `char.ToLower` on ASCII, Latin-1, Cyrillic U+0400..U+045F and the
      Ukrainian letter U+0490 (GHE WITH UPTURN). */
  function LowerChar(c: char): char {
    var n := c as int;
    if ('A' <= c <= 'Z') || (0xC0 <= n <= 0xDE && n != 0xD7) || (0x410 <= n <= 0x42F) then (n + 32) as char
    else if 0x400 <= n <= 0x40F then (n + 80) as char
    else if n == 0x490 then 0x491 as char
    else c
  }

  /** `char.ToUpper` on ASCII, Latin-1 (except U+00FF), Cyrillic
      U+0430..U+045F and the Ukrainian letter U+0491. */
  function UpperChar(c: char): char {
    var n := c as int;
    if ('a' <= c <= 'z') || (0xE0 <= n <= 0xFE && n != 0xF7) || (0x430 <= n <= 0x44F) then (n - 32) as char
    else if 0x450 <= n <= 0x45F then (n - 80) as char
    else if n == 0x491 then 0x490 as char
    else c
  }

  // ---------------------------------------------------------------------
  // Whole strings
  // ---------------------------------------------------------------------

  /** `string.ToLower`: every character mapped on its own. */
  function Lower(s: string): (r: string)
    ensures |r| == |s|
    ensures forall i :: 0 <= i < |s| ==> r[i] == LowerChar(s[i])
  {
    seq(|s|, i requires 0 <= i < |s| => LowerChar(s[i]))
  }

  /** Only "0" lower-cases to "0": lower-casing never produces a digit. */
  lemma LowerIsZeroOnlyForZero(s: string)
    ensures Lower(s) == "0" <==> s == "0"
  {
    if Lower(s) == "0" {
      assert LowerChar(s[0]) == '0';
    }
  }

  /** A string whose characters lower-case to themselves is its own
      lower-case form. */
  lemma LowerFixed(s: string)
    requires forall i :: 0 <= i < |s| ==> LowerChar(s[i]) == s[i]
    ensures Lower(s) == s
  {
  }

  /** `string.IsNullOrWhiteSpace` on a non-null string (the empty string counts). */
  predicate IsBlank(s: string) {
    forall i :: 0 <= i < |s| ==> IsWhiteSpace(s[i])
  }

  /** No character of `s` is white space. */
  predicate NoWhiteSpace(s: string) {
    forall i :: 0 <= i < |s| ==> !IsWhiteSpace(s[i])
  }

  /** `s.All(char.IsDigit)` (true of the empty string). */
  predicate AllDigits(s: string) {
    forall i :: 0 <= i < |s| ==> IsDigit(s[i])
  }

  /** The test the engine's input prompt repeats until it holds: the line is
      neither blank nor made of digits only (ExamDictionary/Dictionarys.cs:81).
      An accepted line is not empty. */
  predicate ValidInput(s: string): (b: bool)
    ensures b ==> |s| > 0
  {
    !IsBlank(s) && !AllDigits(s)
  }

  /** The prompt accepts a line exactly when something is left after
      trimming and some character is not a digit. */
  lemma ValidInputMeans(s: string)
    ensures ValidInput(s) <==> Trim(s) != "" && exists i :: 0 <= i < |s| && !IsDigit(s[i])
  {
    TrimEmptyIffBlank(s);
  }

  /** `TrimStart()`: leading white space removed. */
  function TrimStart(s: string): (r: string)
    ensures |r| <= |s| && r == s[|s| - |r|..]
    ensures forall i :: 0 <= i < |s| - |r| ==> IsWhiteSpace(s[i])
    ensures |r| == 0 || !IsWhiteSpace(r[0])
  {
    if |s| > 0 && IsWhiteSpace(s[0]) then TrimStart(s[1..]) else s
  }

  /** `TrimEnd()`: trailing white space removed. */
  function TrimEnd(s: string): (r: string)
    ensures |r| <= |s| && r == s[..|r|]
    ensures forall i :: |r| <= i < |s| ==> IsWhiteSpace(s[i])
    ensures |r| == 0 || !IsWhiteSpace(r[|r| - 1])
  {
    if |s| > 0 && IsWhiteSpace(s[|s| - 1]) then TrimEnd(s[..|s| - 1]) else s
  }

  /** `Trim()`: white space removed at both ends. */
  function Trim(s: string): (r: string)
    ensures |r| <= |s|
  {
    TrimEnd(TrimStart(s))
  }

  /** White space in front of a string is trimmed away. */
  lemma TrimDropsLeadingWhiteSpace(c: char, s: string)
    requires IsWhiteSpace(c)
    ensures Trim([c] + s) == Trim(s)
  {
    assert ([c] + s)[1..] == s;
    assert TrimStart([c] + s) == TrimStart(s);
  }

  /** Trimming leaves the empty string exactly when the input was blank. */
  lemma TrimEmptyIffBlank(s: string)
    ensures Trim(s) == [] <==> IsBlank(s)
  {
    var t := TrimStart(s);
    if |t| > 0 {
      assert s[|s| - |t|] == t[0];
      assert TrimEnd(t)[0] == t[0];
    }
  }

  /** A trimmed string is blank exactly when the untrimmed one was. */
  lemma TrimBlankIffBlank(s: string)
    ensures IsBlank(Trim(s)) <==> IsBlank(s)
  {
    TrimEmptyIffBlank(s);
    var t := Trim(s);
    if |t| > 0 {
      assert !IsWhiteSpace(t[0]) by {
        var u := TrimStart(s);
        assert t == u[..|t|];
      }
    }
  }

  /** A string with no white space at either end trims to itself. */
  lemma TrimClean(s: string)
    requires |s| > 0 && !IsWhiteSpace(s[0]) && !IsWhiteSpace(s[|s| - 1])
    ensures Trim(s) == s
  {
  }

  /** One leading white-space character in front of a clean string is
      trimmed away. */
  lemma TrimLeadingWhiteSpace(c: char, s: string)
    requires IsWhiteSpace(c)
    requires |s| > 0 && !IsWhiteSpace(s[0]) && !IsWhiteSpace(s[|s| - 1])
    ensures Trim([c] + s) == s
  {
    assert ([c] + s)[1..] == s;
    assert TrimStart([c] + s) == TrimStart(s);
  }

  // ---------------------------------------------------------------------
  // Pieces between commas and full stops, empty pieces dropped
  // ---------------------------------------------------------------------

  predicate IsSeparator(c: char) {
    c == ',' || c == '.'
  }

  predicate NoSeparator(s: string) {
    forall i :: 0 <= i < |s| ==> !IsSeparator(s[i])
  }

  /** Position of the first separator, or `|s|` when there is none. */
  function SeparatorIndex(s: string): (i: nat)
    ensures i <= |s|
    ensures i < |s| ==> IsSeparator(s[i])
    ensures NoSeparator(s[..i])
  {
    if |s| == 0 || IsSeparator(s[0]) then 0 else 1 + SeparatorIndex(s[1..])
  }

  /** The non-empty pieces between separators, in order. Pieces are not
      trimmed: a piece made of spaces survives the empty-entry filter. */
  function SplitPieces(s: string): (r: seq<string>)
    ensures forall k :: 0 <= k < |r| ==> |r[k]| > 0 && NoSeparator(r[k])
    decreases |s|
  {
    if |s| == 0 then []
    else
      var i := SeparatorIndex(s);
      (if i == 0 then [] else [s[..i]]) + (if i == |s| then [] else SplitPieces(s[i + 1..]))
  }

  /** A non-empty string without separators is a single piece. */
  lemma SplitPiecesWhole(s: string)
    requires |s| > 0 && NoSeparator(s)
    ensures SplitPieces(s) == [s]
  {
    SeparatorIndexOfClean(s);
    assert s[..|s|] == s;
  }

  /** A string without separators has its first separator at its end. */
  lemma {:induction false} SeparatorIndexOfClean(s: string)
    requires NoSeparator(s)
    ensures SeparatorIndex(s) == |s|
    decreases |s|
  {
    if |s| > 0 {
      assert !IsSeparator(s[0]);
      SeparatorIndexOfClean(s[1..]);
    }
  }

  /** A non-empty separator-free prefix up to a separator is the first piece;
      splitting carries on after the separator. */
  lemma SplitPiecesAt(a: string, c: char, b: string)
    requires |a| > 0 && NoSeparator(a) && IsSeparator(c)
    ensures SplitPieces(a + [c] + b) == [a] + SplitPieces(b)
  {
    var s := a + [c] + b;
    SeparatorIndexAt(a, c, b);
    assert s[..|a|] == a && s[|a| + 1..] == b;
  }

  /** In `a + [c] + b` with `a` separator-free, `c` is the first separator. */
  lemma {:induction false} SeparatorIndexAt(a: string, c: char, b: string)
    requires NoSeparator(a) && IsSeparator(c)
    ensures SeparatorIndex(a + [c] + b) == |a|
    decreases |a|
  {
    var s := a + [c] + b;
    if |a| == 0 {
      assert s[0] == c;
    } else {
      assert !IsSeparator(s[0]);
      assert s[1..] == a[1..] + [c] + b;
      SeparatorIndexAt(a[1..], c, b);
    }
  }

  /** A leading separator contributes no piece. */
  lemma SplitPiecesSkip(c: char, b: string)
    requires IsSeparator(c)
    ensures SplitPieces([c] + b) == SplitPieces(b)
  {
    assert ([c] + b)[1..] == b;
  }

  /** A string of separators only has no pieces. */
  lemma {:induction false} SplitPiecesOfSeparators(s: string)
    requires forall i :: 0 <= i < |s| ==> IsSeparator(s[i])
    ensures SplitPieces(s) == []
    decreases |s|
  {
    if |s| > 0 {
      assert SeparatorIndex(s) == 0;
      SplitPiecesOfSeparators(s[1..]);
    }
  }

  /** Concatenation of a sequence of strings. */
  function Concat(ss: seq<string>): string {
    if |ss| == 0 then [] else ss[0] + Concat(ss[1..])
  }

  /** `s` with every separator deleted. */
  function DropSeparators(s: string): string {
    if |s| == 0 then [] else (if IsSeparator(s[0]) then [] else [s[0]]) + DropSeparators(s[1..])
  }

  lemma {:induction false} ConcatAppend(a: seq<string>, b: seq<string>)
    ensures Concat(a + b) == Concat(a) + Concat(b)
    decreases |a|
  {
    if |a| > 0 {
      calc {
        Concat(a + b);
        (a + b)[0] + Concat((a + b)[1..]);
        { assert (a + b)[1..] == a[1..] + b; }
        a[0] + Concat(a[1..] + b);
        { ConcatAppend(a[1..], b); }
        a[0] + (Concat(a[1..]) + Concat(b));
      }
    } else {
      assert a + b == b;
    }
  }

  lemma {:induction false} DropSeparatorsAppend(a: string, b: string)
    ensures DropSeparators(a + b) == DropSeparators(a) + DropSeparators(b)
    decreases |a|
  {
    if |a| > 0 {
      assert (a + b)[0] == a[0];
      assert (a + b)[1..] == a[1..] + b;
      DropSeparatorsAppend(a[1..], b);
    } else {
      assert a + b == b;
    }
  }

  lemma {:induction false} DropSeparatorsKeeps(s: string)
    requires NoSeparator(s)
    ensures DropSeparators(s) == s
    decreases |s|
  {
    if |s| > 0 {
      DropSeparatorsKeeps(s[1..]);
    }
  }

  /** Deleting separators keeps the separator-free prefix and continues
      after the first separator. */
  lemma {:induction false} DropSeparatorsAtFirst(s: string)
    ensures var i := SeparatorIndex(s);
      DropSeparators(s) == s[..i] + (if i == |s| then [] else DropSeparators(s[i + 1..]))
  {
    var i := SeparatorIndex(s);
    var pre, post := s[..i], s[i..];
    assert s == pre + post;
    DropSeparatorsAppend(pre, post);
    DropSeparatorsKeeps(pre);
    if i < |s| {
      var rest := s[i + 1..];
      assert post == [s[i]] + rest;
      DropSeparatorsAppend([s[i]], rest);
      assert DropSeparators([s[i]]) == [] + DropSeparators([s[i]][1..]);
      assert [s[i]][1..] == [];
    } else {
      assert post == [];
    }
  }

  /** The pieces lose nothing but the separators: joined back together they
      are the input with its commas and full stops deleted. */
  lemma {:induction false} SplitPiecesCover(s: string)
    ensures Concat(SplitPieces(s)) == DropSeparators(s)
    decreases |s|
  {
    if |s| > 0 {
      var i := SeparatorIndex(s);
      var head: seq<string> := if i == 0 then [] else [s[..i]];
      var tail: seq<string> := if i == |s| then [] else SplitPieces(s[i + 1..]);
      assert SplitPieces(s) == head + tail;
      ConcatAppend(head, tail);
      assert Concat(head) == s[..i];
      DropSeparatorsAtFirst(s);
      if i < |s| {
        SplitPiecesCover(s[i + 1..]);
      }
    }
  }

  // ---------------------------------------------------------------------
  // Ordinal substring search
  // ---------------------------------------------------------------------

  /** `needle` occurs in `s` starting at position `p`. */
  predicate OccursAt(s: string, needle: string, p: int) {
    0 <= p && p + |needle| <= |s| && s[p..p + |needle|] == needle
  }

  /** Ordinal `s.IndexOf(needle)` from position `from`: the first position
      at or after `from` where `needle` starts, or -1. */
  function IndexOfFrom(s: string, needle: string, from: nat): (r: int)
    ensures r == -1 || (from <= r && OccursAt(s, needle, r))
    ensures forall p :: from <= p && (r == -1 || p < r) ==> !OccursAt(s, needle, p)
    decreases |s| - from
  {
    if from + |needle| > |s| then -1
    else if s[from..from + |needle|] == needle then from
    else IndexOfFrom(s, needle, from + 1)
  }

  /** Ordinal `s.IndexOf(needle)`. */
  function IndexOf(s: string, needle: string): (r: int)
    ensures r == -1 || OccursAt(s, needle, r)
    ensures forall p :: OccursAt(s, needle, p) ==> r != -1 && r <= p
  {
    IndexOfFrom(s, needle, 0)
  }
}
